=== FILE: README.md ===
# User service and bearer-token gate of go-zero-template, in Dafny

This project models the core of the go-zero-template backend:

- the **user service**, from its RPC adapters down to the repository;
- the **error taxonomy** shared by the HTTP and RPC surfaces;
- the **bearer-token gate** of the HTTP gateway;
- the **validation-message formatter**.

Everything is pure functions over immutable datatypes:

- The SQL table is an abstract sequence of rows in storage order, plus the next value of the id sequence. A row can carry a scan error, which models a row that fails to decode.
- A database failure is injected through a `Faults` map, per statement and per row fetch of a listed page.
- Every use-case call returns the store it leaves behind, the repository calls it made in order, and its result.
- The identity provider's userinfo exchange is an oracle passed as a function parameter.
- The next HTTP handler is a recorded invocation.

Modules, leaves first:

| file | module | models |
|---|---|---|
| wrappers.dfy | `Wrappers` | `Option` and `Result` |
| strings.dfy | `Strings` | `strings.Split` on one character, `Join`, `TrimPrefix`, `TrimLeftFunc`/`TrimRightFunc`/`TrimFunc`/`TrimSpace` with `unicode.IsSpace`, ASCII `ToLower` |
| errors.dfy | `Errors` | `Error`, the six predefined errors, `WithDetails`, `Error()`, `errors.As`, `httpStatusToGRPCCode`, `ToGRPCError` |
| domain.dfy | `Domain` | the `User` record, `int64` and its wrap-around, clock values |
| user_repo.dfy | `UserRepo` | `Create`, `GetByID`, `GetByEmail`, `List`, `Update`, `Delete` on the abstract table |
| user_usecase.dfy | `UserUsecase` | `CreateUser`, `GetUser`, `GetUsers`, `UpdateUser`, `DeleteUser` |
| user_logic.dfy | `UserLogic` | the five RPC `*Logic` adapters |
| auth.dfy | `Auth` | `NewZitadelClient`, `ValidateToken`, `ExtractTokenFromRequest` |
| middleware.dfy | `Middleware` | `Handle` and `OptionalAuth` |
| validator.dfy | `Validator` | `getValidationMessage`, `formatValidationError`, the json-tag name function |

The header form is split on a single space character, not on runs of white space as the `1*SP` of section 2.1 of RFC 6750 would allow. So `"Bearer  abc"` (two spaces) has three parts and is ignored (`Auth.DoubleSpaceFallsBack`).

## Model

| member | source | states |
|---|---|---|
| Errors.PredefinedErrors | common/errors/errors.go:14-19 | The six predefined errors carry 404 NOT_FOUND, 400 BAD_REQUEST, 401 UNAUTHORIZED, 403 FORBIDDEN, 500 INTERNAL_ERROR and 409 CONFLICT, with empty details |
| Errors.NewError | common/errors/errors.go:35-41 | A new error has the given status, code and message, and no details |
| Errors.WithDetails | common/errors/errors.go:44-51 | A new value equal to the receiver in status, code and message, carrying the given details |
| Errors.WithDetailsOverwrites | common/errors/errors.go:44-51 | Value semantics: attaching details twice keeps only the last ones; empty details on a fresh error give back that error |
| Errors.ErrorTextIgnoresDetails | common/errors/errors.go:30-32 | The text of an error is its message, whatever details it carries |
| Errors.ErrorText | common/errors/errors.go:30-32 | `Error()` gives the message alone; the property is stated by Errors.ErrorTextIgnoresDetails |
| Errors.AsCustom | common/errors/errors.go:59-60 | `errors.As`: returns nothing exactly when no error on the unwrap chain is custom; otherwise it returns the first custom error on the chain |
| Errors.HttpStatusToGrpcCode | common/errors/errors.go:70-91 | Only status 200 maps to OK; the whole mapping is stated against a table by Errors.GrpcCodeMatchesTable |
| Errors.GrpcCodeMatchesTable | common/errors/errors.go:70-91 | For every status, the switch agrees with the eight-entry table 200→OK … 503→Unavailable, and any status outside the table maps to Internal |
| Errors.GrpcCodeDistinguishesStatuses | common/errors/errors.go:70-91 | Two different statuses map to the same code only when that code is Internal |
| Errors.ToGrpcError | common/errors/errors.go:54-67 | nil stays nil. A custom error on the chain gives its mapped code and its message, except that a custom error with status 200 gives no error at all. Any other error gives Internal with "Internal server error" |
| Errors.StatusError | common/errors/errors.go:62 | grpc's `status.Error`: an error with the given code and message, and no error at all exactly when the code is OK |
| Errors.ToGrpcErrorDropsDetails | common/errors/errors.go:59-63 | Errors that differ only in details translate alike: to the mapped code with the message, or to no error when the status is 200 |
| Errors.ToGrpcErrorHidesForeignText | common/errors/errors.go:65-66 | Any two non-custom errors translate to the same fixed status, so their text never reaches the caller |
| Errors.ToGrpcErrorSeesThroughWrapping | common/errors/errors.go:59-63 | A custom error wrapped by `fmt.Errorf("…%w")` translates as the bare custom error does: its mapped code with its message, or no error when the status is 200 |
| Errors.PredefinedErrorsToGrpc | common/errors/errors.go:14-19 | Under `ToGRPCError`, each predefined error maps to the code of its severity (NotFound, InvalidArgument, Unauthenticated, PermissionDenied, Internal, AlreadyExists), whatever its details |
| Domain.Wrap64 | service/user/internal/repository/user_repo.go:102 | The `int64` result of an arithmetic expression is the unique `int64` congruent to the exact value modulo 2^64; it is the exact value when that fits |
| Strings.Split | common/auth/zitadel.go:116 | `strings.Split` on one character: one more part than separators, no part contains the separator, and joining the parts with it gives back the input |
| Strings.SplitJoin | common/auth/zitadel.go:116 | The other half of the round trip: splitting the join of separator-free parts gives back the parts |
| Strings.TrimPrefix | common/auth/zitadel.go:70 | At most one leading occurrence of the prefix is removed, and only when present |
| Strings.ToLower | common/auth/zitadel.go:117 | Same length; each character is lower-cased on its own |
| Strings.TrimFunc | common/auth/zitadel.go:71 | The result does not start or end with a trimmed character. It occurs in the input at the end of the leading run, with only trimmed characters around it |
| Strings.TrimFuncExact | common/auth/zitadel.go:71 | Trimming removes exactly the runs of trimmed characters around a core whose ends are not trimmed |
| Strings.TrimFuncIdempotent | common/auth/zitadel.go:71 | Trimming twice trims nothing more |
| Strings.TrimSpace | common/auth/zitadel.go:71 | `strings.TrimSpace`: the result has no Unicode white space at either end and sits in the input with only white space around it |
| Strings.JoinSnoc | common/validator/validator.go:40 | Joining one more part appends the separator and that part |
| UserRepo.Create | service/user/internal/repository/user_repo.go:25-39 | A failed insert leaves no row. Otherwise it appends one row whose user is the given one with a store-assigned id, positive and unused in a valid store, and the store stays valid |
| UserRepo.GetById | service/user/internal/repository/user_repo.go:41-65 | The statement's failure is returned as is. "user not found" when no row has the id; in a valid store with a matching row, that row's scan. A user it returns has the id and is a stored row |
| UserRepo.GetByEmail | service/user/internal/repository/user_repo.go:67-91 | The statement's failure is returned as is; "user not found" when no row has the email. A user it returns has that email and is a stored row; with unique emails it is the row's scan |
| UserRepo.SortNewestFirst | service/user/internal/repository/user_repo.go:103-108 | `ORDER BY created_at DESC`: a permutation of the rows (same multiset) in non-increasing `created_at` order |
| UserRepo.Decoded | service/user/internal/repository/user_repo.go:117-132 | The scan loop keeps at most one user per fetched row; UserRepo.DecodedFromRows and UserRepo.DecodedKeepsAll state which |
| UserRepo.Delivered | service/user/internal/repository/user_repo.go:118 | `rows.Next()` stops at the first row whose fetch fails: every row before it was fetched, and that row's fetch failed |
| UserRepo.Window | service/user/internal/repository/user_repo.go:102-110 | `LIMIT`/`OFFSET`: at most `limit` rows, the contiguous run starting at `offset`, empty past the end |
| UserRepo.DecodedFromRows | service/user/internal/repository/user_repo.go:117-132 | The scan loop yields only users of rows that scan, and keeps newest-first order |
| UserRepo.DecodedKeepsAll | service/user/internal/repository/user_repo.go:117-132 | When every row scans, nothing is skipped and the users come out in row order |
| UserRepo.ListAt | service/user/internal/repository/user_repo.go:93-135 | A count failure or a page-query failure fails the call, and so does a negative OFFSET or LIMIT, with the database's refusal. Otherwise it succeeds with the count of all rows and the page at the offset, cut short without an error at a failed row fetch |
| UserRepo.FetchFailureTruncatesPage | service/user/internal/repository/user_repo.go:118-134 | A failed row fetch is never reported: the page keeps a prefix of the complete page, and a failure on the first row leaves it empty |
| UserRepo.List | service/user/internal/repository/user_repo.go:93-135 | The listing with the exact OFFSET `(page-1)*pageSize`. It fails exactly on a statement failure or a negative offset or size. On success the total is the number of rows, and the page is the one at that offset: at most `pageSize` users, newest first, each a scannable stored row |
| UserRepo.PageAtFromTable | service/user/internal/repository/user_repo.go:103-132 | Every user on a page is a scannable stored row, the page is newest first, and it holds at most LIMIT users |
| UserRepo.ListAsWritten | service/user/internal/repository/user_repo.go:93-135 | The listing as written, with the OFFSET wrapped in `int64`. It succeeds exactly when no statement fails, the size is non-negative and the wrapped offset is non-negative; with a negative wrapped offset it fails with the database's refusal. A successful call returns the total row count and the page at the wrapped OFFSET, newest first, with at most pageSize users |
| UserRepo.ListTotalIgnoresPage | service/user/internal/repository/user_repo.go:94-100 | The total is the same for every page and page size |
| UserRepo.PageBeyondEndIsEmpty | service/user/internal/repository/user_repo.go:102-110 | A page starting past the last row is empty, with the full total |
| UserRepo.PagesTile | service/user/internal/repository/user_repo.go:102-110 | For one fixed order of rows with equal `created_at`, paging neither skips nor repeats rows: the first n pages together are the scannable rows among the first n·size sorted rows, in order |
| UserRepo.ListAsWrittenAgreesInRange | service/user/internal/repository/user_repo.go:102 | When `(page-1)*pageSize` fits in `int64`, the wrapping computation agrees with the exact one |
| UserRepo.OffsetWrapCounterexample | service/user/internal/repository/user_repo.go:102 | With one stored user, page 2^62+1 of size 100 returns that user as written, where the exact listing returns an empty page |
| UserRepo.NegativeOffsetWrapCounterexample | service/user/internal/repository/user_repo.go:102 | Page 92233720368547760 of size 100 fails as written, because the OFFSET wraps negative; with the exact OFFSET it is an empty page |
| UserRepo.Update | service/user/internal/repository/user_repo.go:137-159 | The statement's failure is returned as is; "user not found" exactly when no row has the id. Otherwise only email, name and updated_at of that row change; its id, created_at and all other rows stay, and the store stays valid |
| UserRepo.Without | service/user/internal/repository/user_repo.go:162 | `DELETE … WHERE id`: exactly the rows without that id remain |
| UserRepo.WithoutDistinct | service/user/internal/repository/user_repo.go:161-179 | Deleting keeps ids distinct |
| UserRepo.WithoutRemovesOne | service/user/internal/repository/user_repo.go:161-179 | With distinct ids, deleting a present id removes exactly one row |
| UserRepo.Delete | service/user/internal/repository/user_repo.go:161-179 | "user not found" exactly when no row has the id. Otherwise the id is gone, every other row remains, nothing new appears, and a valid store stays valid with one row fewer |
| UserRepo.DeleteTwiceNotFound | service/user/internal/repository/user_repo.go:170-176 | A second delete of the same id returns "user not found" |
| UserRepo.CreateThenGetById | service/user/internal/repository/user_repo.go:25-65 | Insert then read by the returned id gives the same user back, with a non-zero id, in a store that keeps timestamps exactly |
| UserUsecase.CreateUser | service/user/internal/usecase/user_usecase.go:25-45 | A found email gives Conflict "User with this email already exists", with the store unchanged and only the lookup made. A failed lookup counts as absent. A failed insert gives InternalError with the driver's text. On success the user has the given email, name and times and is appended to the store |
| UserUsecase.GetUser | service/user/internal/usecase/user_usecase.go:48-54 | Any lookup failure becomes NotFound "User not found". It succeeds exactly when the lookup does, returning the stored user with that id |
| UserUsecase.ClampPage | service/user/internal/usecase/user_usecase.go:58-60 | The page is at least 1; a page already at least 1 is untouched |
| UserUsecase.ClampPageSize | service/user/internal/usecase/user_usecase.go:61-66 | The size is within 1..100: below 1 becomes 10, above 100 becomes 100, and in range is untouched |
| UserUsecase.ClampIdempotent | service/user/internal/usecase/user_usecase.go:58-66 | Clamping an already clamped value changes nothing |
| UserUsecase.GetUsers | service/user/internal/usecase/user_usecase.go:57-74 | One `List` call with the clamped page and size, and the store unchanged. A failure is InternalError. On success the total is the row count, and the users are the page at the exact offset for the clamped values: at most 100, newest first |
| UserUsecase.GetUsersAsWritten | service/user/internal/usecase/user_usecase.go:57-74 | The same call over the listing as written. It fails exactly on a statement failure or a wrapped negative OFFSET, the latter as InternalError carrying the database's refusal; every failure is 500 INTERNAL_ERROR. A successful call returns the total row count and the page at the wrapped OFFSET of the clamped inputs, newest first, with at most 100 users |
| UserUsecase.GetUsersAsWrittenAgrees | service/user/internal/usecase/user_usecase.go:57-74 | While the OFFSET of the clamped values fits in `int64`, the two agree |
| UserUsecase.GetUsersNegativeOffset | service/user/internal/usecase/user_usecase.go:57-74 | Page 92233720368547760 of size 100 is an InternalError as written and an empty page with the exact OFFSET |
| UserUsecase.GetUsersDefaults | service/user/internal/usecase/user_usecase.go:58-66 | Page 0 with size 0 behaves as page 1 with size 10; any page below 1 behaves as page 1; sizes above 100 behave as 100 and sizes below 1 as 10 |
| UserUsecase.UpdateUser | service/user/internal/usecase/user_usecase.go:77-103 | A missing id is NotFound before any write. Conflict "Email already taken" happens exactly when the non-empty email belongs to another id. On success, an empty email or name keeps the stored one, id and created_at are kept, and updated_at is the clock. The store is the repository update of that user: the row with the id holds the result, and the other rows and the id sequence are untouched. A failed update is InternalError |
| UserUsecase.DeleteUser | service/user/internal/usecase/user_usecase.go:106-118 | A missing id is NotFound before any write, and a failed delete is InternalError. It succeeds exactly when both steps do; then the id is gone, the other rows remain, and one row fewer is left |
| UserUsecase.CreateThenGetUser | service/user/internal/usecase/user_usecase.go:25-54 | A created user reads back by its id unchanged, in a store that keeps timestamps exactly |
| UserUsecase.CreateDuplicateRefused | service/user/internal/usecase/user_usecase.go:27-30 | With a working lookup, an email held by a scannable row is refused with Conflict and nothing is inserted |
| UserUsecase.CreateKeepsEmailsUnique | service/user/internal/usecase/user_usecase.go:25-45 | With scannable rows and a working lookup, creation preserves email uniqueness |
| UserUsecase.LookupFailureAdmitsDuplicate | service/user/internal/usecase/user_usecase.go:27-28 | The ignored lookup error lets a second user with an existing email be created |
| UserUsecase.UpdateThenGetUser | service/user/internal/usecase/user_usecase.go:77-103 | After a successful update, reading the id returns the updated user |
| UserUsecase.UpdateOwnEmailSucceeds | service/user/internal/usecase/user_usecase.go:85-92 | Re-submitting a user's own email is not a conflict |
| UserUsecase.UpdateKeepsEmailsUnique | service/user/internal/usecase/user_usecase.go:85-92 | With scannable rows and a working lookup, updating preserves email uniqueness |
| UserUsecase.DeleteUserTwice | service/user/internal/usecase/user_usecase.go:106-118 | A second delete of the same id is NotFound and changes nothing |
| UserUsecase.UnscannableRowIsNotFound | service/user/internal/usecase/user_usecase.go:49-52 | A stored row that fails to scan is reported as NotFound by read, update and delete, and update leaves the store as it was |
| UserLogic.CreateUser | service/user/internal/logic/userlogic.go:26-38 | The use-case error passes through unchanged. On success the response carries the new id, the given email and name, and the creation time formatted |
| UserLogic.GetUser | service/user/internal/logic/userlogic.go:54-67 | The use-case error passes through unchanged. On success the response copies the user's fields, with the requested id |
| UserLogic.GetUsers | service/user/internal/logic/userlogic.go:83-106 | The use-case error passes through unchanged. On success the users are rendered in the same order and number, the total is the row count, and page and page size are echoed as requested |
| UserLogic.UpdateUser | service/user/internal/logic/userlogic.go:122-134 | The use-case error passes through unchanged. On success the response copies the id, email and name of the updated user, with the update time formatted |
| UserLogic.DeleteUser | service/user/internal/logic/userlogic.go:150-159 | The use-case error passes through unchanged; `Success = true` exactly when the use case succeeds |
| UserLogic.GetUsersEchoesUnclampedPaging | service/user/internal/logic/userlogic.go:100-105 | Page 0 with size 0 is listed as page 1 with size 10, yet echoed as 0 and 0 |
| UserLogic.CreateThenGetOverRpc | service/user/internal/logic/userlogic.go:26-67 | A user created over RPC reads back over RPC with the same id, email, name and creation time, in a store that keeps timestamps exactly |
| UserLogic.MissingUserSameErrorEverywhere | service/user/internal/usecase/user_usecase.go:48-118 | For an absent id, read, update and delete all answer NotFound "User not found" |
| Auth.NewZitadelClient | common/auth/zitadel.go:42-65 | Both configurations share credentials and scopes. The endpoints are issuer + "/oauth/v2/authorize" and issuer + "/oauth/v2/token" |
| Auth.UserInfoUrl | common/auth/zitadel.go:80 | issuer + "/oidc/v1/userinfo"; Auth.EndpointsDetermineIssuer states that it is distinct from the other endpoints and determines the issuer |
| Auth.EndpointsDetermineIssuer | common/auth/zitadel.go:48-57 | The authorize, token and userinfo URLs are pairwise distinct, and the token or userinfo URL determines the issuer |
| Auth.Normalize | common/auth/zitadel.go:70-71 | The token sent is the input with at most one leading case-sensitive "Bearer " removed and then exactly the white space at either end removed: it sits inside that string with only white space around it, and neither of its ends is white space |
| Auth.NormalizeUndoesBearer | common/auth/zitadel.go:70-71 | A token without surrounding white space (and not itself starting with the prefix) normalises to itself, with or without one "Bearer " in front |
| Auth.NormalizeStripsOnce | common/auth/zitadel.go:70 | "Bearer Bearer x" keeps one prefix: only one is removed |
| Auth.NormalizeCaseSensitive | common/auth/zitadel.go:70 | "bearer x" keeps its lower-case prefix: the match is case sensitive |
| Auth.NormalizeTrimsAfterPrefix | common/auth/zitadel.go:70-71 | White space left after the prefix is trimmed |
| Auth.ValidateToken | common/auth/zitadel.go:68-104 | It succeeds exactly when the userinfo endpoint, called with "Bearer " + normalised token, answers 200 with a decodable body, and then returns that body. A non-200 status gives "invalid token: status code <n>"; transport, request-building and decoding failures are wrapped with their prefixes |
| Auth.ValidateTokenSeesNormalisedToken | common/auth/zitadel.go:70-86 | Tokens that normalise alike validate alike |
| Auth.QueryGet | common/auth/zitadel.go:123 | The first value of the parameter, or "" when it is absent |
| Auth.BearerFromHeader | common/auth/zitadel.go:116-119 | A header without exactly one space is refused |
| Auth.ExtractToken | common/auth/zitadel.go:112-129 | A non-empty well-formed header yields its token; otherwise the `token` query parameter ("" when absent) |
| Auth.HeaderFormAccepted | common/auth/zitadel.go:116-118 | Every "<scheme> <token>" with a space-free token and a scheme spelling "bearer" in any case yields that token |
| Auth.HeaderSchemeChecked | common/auth/zitadel.go:117 | A two-part header whose scheme is not "bearer" in any case is refused |
| Auth.HeaderFormOnly | common/auth/zitadel.go:116-118 | An accepted header is exactly such a scheme, one space and the token |
| Auth.EmptyBearerHidesQuery | common/auth/zitadel.go:115-119 | "Bearer " yields "" without consulting the query |
| Auth.DoubleSpaceFallsBack | common/auth/zitadel.go:116-126 | "Bearer  abc" falls back to the query parameter |
| Auth.ThreePartsFallBack | common/auth/zitadel.go:116-126 | "Bearer abc def" falls back to the query parameter |
| Auth.OtherSchemeFallsBack | common/auth/zitadel.go:116-126 | "Basic abc" falls back to the query parameter |
| Auth.BareTokenFallsBack | common/auth/zitadel.go:116-126 | "abc" falls back to the query parameter |
| Auth.HeaderWinsOverQuery | common/auth/zitadel.go:114-125 | A well-formed header gives the same token whatever the query holds |
| Auth.NoTokenAnywhere | common/auth/zitadel.go:123-128 | Without a usable header and without a `token` parameter the result is "" |
| Middleware.Lookup | api/internal/middleware/authmiddleware.go:42-44 | `ctx.Value`: the latest binding of the key, and nothing exactly when the key is unbound |
| Middleware.WithIdentity | api/internal/middleware/authmiddleware.go:42-44 | user_id is bound to Sub, user_email to Email and user_info to the whole UserInfo; every other key and the header and query are unchanged |
| Middleware.Handle | api/internal/middleware/authmiddleware.go:24-49 | No token gives Unauthorized, with no validation and no forwarding. A refused token gives Unauthorized "Invalid or expired token" with no forwarding. Otherwise the handler forwards once with the identity attached and writes no response |
| Middleware.OptionalAuth | api/internal/middleware/authmiddleware.go:52-66 | Never rejects and always forwards once. The request is untouched when there is no token (no validation) or the token is refused; otherwise the identity is attached |
| Middleware.HandleRejectsOrForwardsOnce | api/internal/middleware/authmiddleware.go:27-47 | Exactly one of: a rejection carrying ErrUnauthorized (status 401, code UNAUTHORIZED), or one forward |
| Middleware.HandleAndOptionalAuthAgree | api/internal/middleware/authmiddleware.go:24-66 | Both validate the same tokens and forward the same request when `Handle` accepts; where `Handle` rejects, `OptionalAuth` forwards the original request |
| Middleware.ForwardedIdentityIsProviderReply | api/internal/middleware/authmiddleware.go:34-47 | The identity the next handler sees is exactly the provider's 200 reply for the normalised token |
| Middleware.NoTokenNoProviderCall | api/internal/middleware/authmiddleware.go:27-31 | A request with no token is rejected by `Handle` and passed on unchanged by `OptionalAuth`, and neither asks the provider |
| Validator.ValidationMessage | common/validator/validator.go:46-63 | The fixed phrases for required, email, min, max, len and oneof, naming the parameter where the rule has one; any other tag gives "failed validation rule: <tag>" |
| Validator.MessageDeterminesRule | common/validator/validator.go:47-62 | The phrase determines the rule: reading it back gives the tag, plus the parameter for the rules that name one |
| Validator.FormatValidationError | common/validator/validator.go:33-43 | A non-list error is returned unchanged; a list gives a plain error starting "validation failed: " |
| Validator.Entry | common/validator/validator.go:37 | "Field '<f>' failed validation: <message>"; Validator.FormatSingle and Validator.FormatAppends state its place in the combined text |
| Validator.FormatAppends | common/validator/validator.go:36-40 | Entries follow input order: one more field error appends "; " and its entry |
| Validator.FormatSingle | common/validator/validator.go:37-40 | One field error gives "validation failed: Field '<f>' failed validation: <message>" |
| Validator.TagName | common/validator/validator.go:15-21 | The name has no comma. A non-empty name is the part of the json tag before its first comma; an empty name comes from an empty first part or a "-" |
| Validator.NameIsFirstPart | common/validator/validator.go:16 | The first part of a split is the text up to the first comma |
| Validator.TagNameIgnoresOptions | common/validator/validator.go:16-20 | Options after the name are ignored |
| Validator.TagNameDash | common/validator/validator.go:17-19 | "-" gives no name, whatever options follow it |

## Left out

- `Validate` and its reflection-driven struct checking (common/validator/validator.go:25-29): they belong to the validation library. Only the formatting over field-error records is modelled.
- The gateway's HTTP logic in api/internal/logic/userlogic.go: the handlers are stubs returning constant responses, and their RPC calls are commented out.
- `GetClientCredentialsToken`: it is a network call to the token endpoint. Only that endpoint's URL is modelled.
- The HTTP exchange in `ValidateToken` and its JSON decoding: they are the `UserInfoEndpoint` oracle, which receives the URL and the Authorization value sent.
- The HTTP status and body that `httpx.ErrorCtx` writes: no error handler is registered, so the framework writes its default response. The middleware's decision records the `Error` value it hands over.
- Logging (`logx`): it does not affect results.
- `time.Now()` and RFC 3339 formatting: clock readings are parameters, and the formatter is a function parameter.
- Errors.ToGrpcError: nothing in the repository calls `ToGRPCError`. The RPC adapters return the use case's `*Error` unchanged (service/user/internal/logic/userlogic.go:29,57,86,125,153), no error-converting interceptor is registered, and `*Error` has no `GRPCStatus()` method. So an RPC client receives code Unknown with the error's text for every custom error, and the code table of `ToGRPCError` does not reach RPC clients. The model states the function as written.
- UserRepo.CreateThenGetById: the store keeps timestamps at its own precision and zone. PostgreSQL keeps microseconds and lib/pq returns the value in the column's or session's zone, while `time.Now()` carries nanoseconds and the local zone. The model stores the abstract time exactly, so the round trip is exact only in the model.
- UserUsecase.CreateThenGetUser: it inherits the exact store of UserRepo.CreateThenGetById. In the real store the read-back `created_at` and `updated_at` are rounded and re-zoned.
- UserLogic.CreateThenGetOverRpc: it inherits the exact store too. In the real store the RFC 3339 creation time read back can differ from the one returned by create, because of a different zone or the rounding of the seconds.
- Concurrency: the check-then-act in create, update and delete, and store-level unique constraints. The model is sequential.
- `RowsAffected` failing after a successful `UPDATE` or `DELETE`: both drivers in the repository (lib/pq and the MySQL driver) return the affected-row count without an error, so that path cannot be taken.
- Connection construction for the database, cache and broker, configuration loading, and server wiring: they are I/O plumbing.
- Strings.ToLower: lower-cases ASCII letters only. Go's Unicode mapping differs only for non-ASCII letters, and none of them lower-cases to a letter of "bearer", so the comparison in `ExtractTokenFromRequest` comes out the same.
- UserRepo.SortNewestFirst: rows with equal `created_at` keep their storage order. SQL leaves that order open, so the model fixes one of the orders the database may return. PostgreSQL does not promise the same order for tied rows across separate LIMIT/OFFSET queries, so in the real database paging may skip or repeat rows with equal `created_at`; UserRepo.PagesTile holds only for one fixed order.
- UserRepo.Create: the ids and the id sequence are unbounded integers. The overflow of the `BIGSERIAL` sequence is not modelled.
- UserUsecase.GetUsers: it lists with the exact OFFSET (UserRepo.List). The program as written is UserUsecase.GetUsersAsWritten, which differs when the OFFSET overflows `int64` (see Findings).
- UserLogic.GetUsers: it is built on UserUsecase.GetUsers, so it shares that difference from the program as written.

## Findings

| source | as written | input that shows it | evidently intended | confidence | as-written member | corrected member |
|---|---|---|---|---|---|---|
| service/user/internal/repository/user_repo.go:102 | `offset := (page - 1) * pageSize` is computed in `int64` and wraps around; `GetUsers` clamps the page only from below | (a) One stored user; page = 4611686018427387905 (2^62+1), pageSize = 100. (page-1)·100 = 2^64·25 wraps to OFFSET 0, so the first page is returned. (b) page = 92233720368547760, pageSize = 100: the OFFSET wraps to -9223372036854775716, the database refuses it, and the call is an InternalError | A page past the end is empty: the offset is computed without overflow, or such a page is refused as a bad request | not executed | UserRepo.ListAsWritten, UserRepo.OffsetWrapCounterexample, UserRepo.NegativeOffsetWrapCounterexample, UserUsecase.GetUsersAsWritten, UserUsecase.GetUsersNegativeOffset | UserRepo.List, UserRepo.PageBeyondEndIsEmpty, UserUsecase.GetUsers |


=== FILE: auth.dfy ===
/** The bearer-token pieces of the identity-provider client: endpoint URLs,
    token extraction from a request (section 2.1 of RFC 6750 for the header,
    a `token` query parameter otherwise), and token validation against the
    OpenID Connect userinfo endpoint (section 5.3 of OpenID Connect Core 1.0),
    whose HTTP exchange is an oracle given as a parameter. */
module Auth {
  import opened Wrappers
  import opened Strings
  import opened Errors

  /** The claims the userinfo endpoint returns. */
  datatype UserInfo = UserInfo(sub: string, email: string, emailVerified: bool, name: string,
                               givenName: string, familyName: string, picture: string, roles: seq<string>)

  datatype ZitadelConfig = ZitadelConfig(issuer: string, clientId: string, clientSecret: string, scopes: seq<string>)

  /** The authorization-code client configuration. */
  datatype OAuthConfig = OAuthConfig(clientId: string, clientSecret: string, scopes: seq<string>,
                                     authUrl: string, tokenUrl: string)

  /** The client-credentials grant configuration (section 4.4 of RFC 6749). */
  datatype ClientCredentialsConfig = ClientCredentialsConfig(clientId: string, clientSecret: string,
                                                             scopes: seq<string>, tokenUrl: string)

  datatype ZitadelClient = ZitadelClient(config: OAuthConfig, clientConfig: ClientCredentialsConfig, issuer: string)

  const AuthorizePath := "/oauth/v2/authorize"
  const TokenPath := "/oauth/v2/token"
  const UserInfoPath := "/oidc/v1/userinfo"

  /** `NewZitadelClient`: both configurations share the credentials and scopes,
      and every endpoint is a fixed path under the issuer. It never fails. */
  function NewZitadelClient(c: ZitadelConfig): (z: ZitadelClient)
    ensures z.issuer == c.issuer
    ensures z.config.clientId == z.clientConfig.clientId == c.clientId
    ensures z.config.clientSecret == z.clientConfig.clientSecret == c.clientSecret
    ensures z.config.scopes == z.clientConfig.scopes == c.scopes
    ensures z.config.authUrl == c.issuer + AuthorizePath
    ensures z.config.tokenUrl == z.clientConfig.tokenUrl == c.issuer + TokenPath
  {
    var tokenUrl := c.issuer + TokenPath;
    ZitadelClient(OAuthConfig(c.clientId, c.clientSecret, c.scopes, c.issuer + AuthorizePath, tokenUrl),
                  ClientCredentialsConfig(c.clientId, c.clientSecret, c.scopes, tokenUrl),
                  c.issuer)
  }

  /** The userinfo endpoint `ValidateToken` calls. */
  function UserInfoUrl(z: ZitadelClient): string
  {
    z.issuer + UserInfoPath
  }

  /** The endpoints are pairwise distinct, and each of them determines the issuer. */
  lemma EndpointsDetermineIssuer(a: ZitadelConfig, b: ZitadelConfig)
    ensures var z := NewZitadelClient(a);
            z.config.authUrl != z.config.tokenUrl && z.config.tokenUrl != UserInfoUrl(z)
            && z.config.authUrl != UserInfoUrl(z)
    ensures NewZitadelClient(a).clientConfig.tokenUrl == NewZitadelClient(b).clientConfig.tokenUrl ==> a.issuer == b.issuer
    ensures UserInfoUrl(NewZitadelClient(a)) == UserInfoUrl(NewZitadelClient(b)) ==> a.issuer == b.issuer
  {
    var z := NewZitadelClient(a);
    var n := |a.issuer|;
    assert z.config.authUrl[n + 10] == AuthorizePath[10] == 'a';
    assert z.config.tokenUrl[n + 10] == TokenPath[10] == 't';
    assert UserInfoUrl(z)[n + 2] == UserInfoPath[2] == 'i';
    assert z.config.tokenUrl[n + 2] == TokenPath[2] == 'a';
    assert z.config.authUrl[n + 2] == AuthorizePath[2] == 'a';
    if NewZitadelClient(a).clientConfig.tokenUrl == NewZitadelClient(b).clientConfig.tokenUrl {
      SuffixCancels(a.issuer, b.issuer, TokenPath);
    }
    if UserInfoUrl(NewZitadelClient(a)) == UserInfoUrl(NewZitadelClient(b)) {
      SuffixCancels(a.issuer, b.issuer, UserInfoPath);
    }
  }

  lemma SuffixCancels(x: string, y: string, suffix: string)
    requires x + suffix == y + suffix
    ensures x == y
  {
    assert |x| == |y|;
    assert x == (x + suffix)[..|x|];
  }

  // ---------------------------------------------------------------- validation

  /** What the HTTP exchange with the userinfo endpoint produced: the request
      could not be built (malformed URL), it could not be completed, or a
      response arrived with a status and a body that did or did not decode. */
  datatype Exchange = BadRequest(text: string) | Unreachable(text: string)
                    | Response(status: int, body: Result<UserInfo, string>)

  /** The exchange as a function of the URL and the Authorization header sent. */
  type UserInfoEndpoint = (string, string) -> Exchange

  /** The token `ValidateToken` sends: at most one leading "Bearer " (case
      sensitive) removed, then surrounding white space trimmed. */
  function Normalize(token: string): (t: string)
    ensures |t| <= |token|
    ensures |t| == 0 || (!IsSpace(t[0]) && !IsSpace(t[|t| - 1]))
    ensures var u := TrimPrefix(token, "Bearer ");
            Surrounded(u, t, |u| - |TrimLeftFunc(u, IsSpace)|, IsSpace)
  {
    TrimSpace(TrimPrefix(token, "Bearer "))
  }

  /** The decimal rendering of an integer, as `%d` prints it. */
  function Decimal(n: int): string
    decreases if n < 0 then 1 - n else n
  {
    if n < 0 then "-" + Decimal(-n)
    else if n < 10 then [Digit(n)]
    else Decimal(n / 10) + [Digit(n % 10)]
  }

  function Digit(d: int): char
    requires 0 <= d < 10
  {
    "0123456789"[d]
  }

  const InvalidTokenPrefix := "invalid token: status code "

  /** `ValidateToken`: normalises the token, sends it as a bearer credential to
      the userinfo endpoint, and accepts only a 200 response whose body decodes. */
  function ValidateToken(z: ZitadelClient, token: string, endpoint: UserInfoEndpoint): (r: Result<UserInfo, GoError>)
    ensures var x := endpoint(UserInfoUrl(z), "Bearer " + Normalize(token));
            && (r.Success? <==> x.Response? && x.status == 200 && x.body.Success?)
            && (r.Success? ==> r.value == x.body.value)
            && (x.Response? && x.status != 200 ==> r == Failure(Plain(InvalidTokenPrefix + Decimal(x.status))))
            && (x.Unreachable? ==> r == Failure(Wrapped("failed to call userinfo endpoint: ", Plain(x.text))))
            && (x.BadRequest? ==> r == Failure(Wrapped("failed to create request: ", Plain(x.text))))
            && (x.Response? && x.status == 200 && x.body.Failure? ==>
                  r == Failure(Wrapped("failed to decode userinfo: ", Plain(x.body.error))))
  {
    var t := Normalize(token);
    match endpoint(UserInfoUrl(z), "Bearer " + t)
    case BadRequest(text) => Failure(Wrapped("failed to create request: ", Plain(text)))
    case Unreachable(text) => Failure(Wrapped("failed to call userinfo endpoint: ", Plain(text)))
    case Response(status, body) =>
      if status != StatusOK then Failure(Plain(InvalidTokenPrefix + Decimal(status)))
      else
        match body
        case Failure(text) => Failure(Wrapped("failed to decode userinfo: ", Plain(text)))
        case Success(info) => Success(info)
  }

  /** Only the normalised token matters: tokens that normalise alike validate alike. */
  lemma ValidateTokenSeesNormalisedToken(z: ZitadelClient, t1: string, t2: string, endpoint: UserInfoEndpoint)
    requires Normalize(t1) == Normalize(t2)
    ensures ValidateToken(z, t1, endpoint) == ValidateToken(z, t2, endpoint)
  {
  }

  /** Normalising undoes the header form: a token without surrounding white
      space that does not itself start with the prefix comes back unchanged,
      with or without one "Bearer " in front. */
  lemma NormalizeUndoesBearer(t: string)
    requires |t| == 0 || (!IsSpace(t[0]) && !IsSpace(t[|t| - 1]))
    requires !("Bearer " <= t)
    ensures Normalize("Bearer " + t) == Normalize(t) == t
  {
    assert ("Bearer " + t)[7..] == t;
    assert TrimPrefix("Bearer " + t, "Bearer ") == TrimPrefix(t, "Bearer ") == t;
    TrimSpaceKeeps(t);
  }

  /** Only one prefix is stripped: a doubled prefix leaves one in the token. */
  lemma NormalizeStripsOnce()
    ensures Normalize("Bearer Bearer x") == "Bearer x"
  {
    assert TrimPrefix("Bearer Bearer x", "Bearer ") == "Bearer x";
    TrimSpaceKeeps("Bearer x");
  }

  /** The prefix match is case sensitive. */
  lemma NormalizeCaseSensitive()
    ensures Normalize("bearer x") == "bearer x"
  {
    assert "bearer x"[0] != "Bearer "[0];
    assert TrimPrefix("bearer x", "Bearer ") == "bearer x";
    TrimSpaceKeeps("bearer x");
  }

  /** White space left behind the prefix is trimmed. */
  lemma NormalizeTrimsAfterPrefix()
    ensures Normalize("Bearer  abc ") == "abc"
  {
    assert TrimPrefix("Bearer  abc ", "Bearer ") == " abc " == " " + "abc" + " ";
    TrimFuncExact(" ", "abc", " ", IsSpace);
  }

  // ---------------------------------------------------------------- extraction

  /** A value bound in a request's context. */
  datatype ContextValue = Text(text: string) | Info(info: UserInfo)

  /** An inbound request: the first Authorization header value ("" when absent),
      the decoded query parameters in order, and the context bindings, oldest first. */
  datatype Request = Request(authorization: string, query: seq<(string, string)>, context: seq<(string, ContextValue)>)

  /** Index of the first query parameter named `key`, or `|query|` when none is. */
  function KeyIndex(query: seq<(string, string)>, key: string): (k: nat)
    ensures k <= |query|
    ensures k < |query| ==> query[k].0 == key
    ensures forall i :: 0 <= i < k ==> query[i].0 != key
  {
    if |query| == 0 then 0
    else if query[0].0 == key then 0
    else 1 + KeyIndex(query[1..], key)
  }

  /** `url.Values.Get`: the first value of `key`, or "" when there is none. */
  function QueryGet(query: seq<(string, string)>, key: string): (v: string)
    ensures (forall i :: 0 <= i < |query| ==> query[i].0 != key) ==> v == ""
    ensures forall i | 0 <= i < |query| && query[i].0 == key ::
              (forall j :: 0 <= j < i ==> query[j].0 != key) ==> v == query[i].1
  {
    var k := KeyIndex(query, key);
    if k < |query| then query[k].1 else ""
  }

  /** The header form: the value splits on single spaces into exactly two parts,
      the first of which is "bearer" in any letter case; the token is the second. */
  function BearerFromHeader(header: string): (t: Option<string>)
    ensures Count(header, ' ') != 1 ==> t.None?
  {
    var parts := Split(header, ' ');
    if |parts| == 2 && ToLower(parts[0]) == "bearer" then Some(parts[1]) else None
  }

  /** `ExtractTokenFromRequest`: the header form when it is well formed, else the
      `token` query parameter, else "". */
  function ExtractToken(r: Request): (t: string)
    ensures r.authorization != "" && BearerFromHeader(r.authorization).Some? ==>
              t == BearerFromHeader(r.authorization).value
    ensures (r.authorization == "" || BearerFromHeader(r.authorization).None?) ==> t == QueryGet(r.query, "token")
  {
    if r.authorization != "" && BearerFromHeader(r.authorization).Some? then BearerFromHeader(r.authorization).value
    else
      var token := QueryGet(r.query, "token");
      if token != "" then token else ""
  }

  /** Every well-formed header is accepted, and yields its token. */
  lemma {:induction false} HeaderFormAccepted(scheme: string, token: string)
    requires ' ' !in scheme && ' ' !in token && ToLower(scheme) == "bearer"
    ensures BearerFromHeader(scheme + " " + token) == Some(token)
  {
    var parts := [scheme, token];
    assert Join(parts[1..], " ") == token;
    assert Join(parts, [' ']) == scheme + " " + token;
    SplitJoin(parts, ' ');
  }

  /** A two-part header with another scheme is refused. */
  lemma {:induction false} HeaderSchemeChecked(scheme: string, token: string)
    requires ' ' !in scheme && ' ' !in token && ToLower(scheme) != "bearer"
    ensures BearerFromHeader(scheme + " " + token).None?
  {
    var parts := [scheme, token];
    assert Join(parts[1..], " ") == token;
    assert Join(parts, [' ']) == scheme + " " + token;
    SplitJoin(parts, ' ');
  }

  /** Only well-formed headers are accepted: an accepted header is a scheme
      spelling "bearer", one space and the token, neither part holding a space. */
  lemma {:induction false} HeaderFormOnly(header: string)
    requires BearerFromHeader(header).Some?
    ensures var t := BearerFromHeader(header).value;
            && |header| > |t|
            && (var scheme := header[..|header| - |t| - 1];
                header == scheme + " " + t && ' ' !in scheme && ' ' !in t && ToLower(scheme) == "bearer")
  {
    var parts := Split(header, ' ');
    assert Join(parts, [' ']) == header;
    assert Join(parts[1..], [' ']) == parts[1];
    assert header == parts[0] + " " + parts[1];
  }

  /** A header with an empty token yields "" and hides the query parameter. */
  lemma EmptyBearerHidesQuery(query: seq<(string, string)>, context: seq<(string, ContextValue)>)
    ensures ExtractToken(Request("Bearer ", query, context)) == ""
  {
    HeaderFormAccepted("Bearer", "");
    assert "Bearer" + " " + "" == "Bearer ";
  }

  /** A double space makes three parts, so the header is ignored. */
  lemma DoubleSpaceFallsBack(query: seq<(string, string)>, context: seq<(string, ContextValue)>)
    ensures ExtractToken(Request("Bearer  abc", query, context)) == QueryGet(query, "token")
  {
    assert "Bearer  abc" == "Bearer" + [' '] + ("" + [' '] + "abc");
    SplitPrefix("Bearer", ' ', "" + [' '] + "abc");
    SplitPrefix("", ' ', "abc");
    SplitNoSeparator("abc", ' ');
  }

  /** A third part makes the header unusable. */
  lemma ThreePartsFallBack(query: seq<(string, string)>, context: seq<(string, ContextValue)>)
    ensures ExtractToken(Request("Bearer abc def", query, context)) == QueryGet(query, "token")
  {
    assert "Bearer abc def" == "Bearer" + [' '] + ("abc" + [' '] + "def");
    SplitPrefix("Bearer", ' ', "abc" + [' '] + "def");
    SplitPrefix("abc", ' ', "def");
    SplitNoSeparator("def", ' ');
  }

  /** Another scheme is ignored. */
  lemma OtherSchemeFallsBack(query: seq<(string, string)>, context: seq<(string, ContextValue)>)
    ensures ExtractToken(Request("Basic abc", query, context)) == QueryGet(query, "token")
  {
    var lower := ToLower("Basic");
    assert lower[1] == LowerChar('a') == 'a' != "bearer"[1];
    HeaderSchemeChecked("Basic", "abc");
    assert "Basic" + " " + "abc" == "Basic abc";
  }

  /** A bare token without a scheme is ignored. */
  lemma BareTokenFallsBack(query: seq<(string, string)>, context: seq<(string, ContextValue)>)
    ensures ExtractToken(Request("abc", query, context)) == QueryGet(query, "token")
  {
    SplitNoSeparator("abc", ' ');
  }

  /** A well-formed header wins over the query parameter, whatever it holds. */
  lemma HeaderWinsOverQuery(header: string, q1: seq<(string, string)>, q2: seq<(string, string)>,
                            c1: seq<(string, ContextValue)>, c2: seq<(string, ContextValue)>)
    requires BearerFromHeader(header).Some?
    ensures ExtractToken(Request(header, q1, c1)) == ExtractToken(Request(header, q2, c2)) == BearerFromHeader(header).value
  {
  }

  /** Without a usable header and without a `token` parameter there is no token. */
  lemma NoTokenAnywhere(r: Request)
    requires r.authorization == "" || BearerFromHeader(r.authorization).None?
    requires forall i :: 0 <= i < |r.query| ==> r.query[i].0 != "token"
    ensures ExtractToken(r) == ""
  {
  }
}

=== FILE: domain.dfy ===
/** The user entity and the machine integers and clock values it is built from. */
module Domain {

  const MinInt64: int := -0x8000_0000_0000_0000
  const MaxInt64: int := 0x7FFF_FFFF_FFFF_FFFF
  const TwoTo64: int := 0x1_0000_0000_0000_0000

  /** Go's `int64`. */
  type Int64 = x: int | -0x8000_0000_0000_0000 <= x <= 0x7FFF_FFFF_FFFF_FFFF

  /** Two's-complement wrap-around of an `int64` result: the unique `int64`
      congruent to `x` modulo 2^64. */
  function Wrap64(x: int): (r: Int64)
    ensures (r - x) % TwoTo64 == 0
    ensures MinInt64 <= x <= MaxInt64 ==> r == x
  {
    var m := x % TwoTo64;
    if m > MaxInt64 then m - TwoTo64 else m
  }

  /** An instant, as an abstract count of clock ticks. */
  type Time = nat

  /** The persisted user record. */
  datatype User = User(id: int, email: string, name: string, createdAt: Time, updatedAt: Time)
}

=== FILE: errors.dfy ===
/** The error taxonomy shared by the HTTP gateway and the RPC user service,
    and its translation to gRPC status values. */
module Errors {
  import opened Wrappers

  const StatusOK := 200
  const StatusBadRequest := 400
  const StatusUnauthorized := 401
  const StatusForbidden := 403
  const StatusNotFound := 404
  const StatusConflict := 409
  const StatusInternalServerError := 500
  const StatusServiceUnavailable := 503

  /** The custom error record: HTTP status, machine-readable code, human message
      and optional free-text details. */
  datatype Error = Error(statusCode: int, code: string, message: string, details: string)

  /** `NewError`: an error without details. */
  function NewError(statusCode: int, code: string, message: string): (e: Error)
    ensures e.statusCode == statusCode && e.code == code && e.message == message
    ensures e.details == ""
  {
    Error(statusCode, code, message, "")
  }

  const ErrNotFound := NewError(StatusNotFound, "NOT_FOUND", "Resource not found")
  const ErrBadRequest := NewError(StatusBadRequest, "BAD_REQUEST", "Invalid request")
  const ErrUnauthorized := NewError(StatusUnauthorized, "UNAUTHORIZED", "Unauthorized")
  const ErrForbidden := NewError(StatusForbidden, "FORBIDDEN", "Forbidden")
  const ErrInternalError := NewError(StatusInternalServerError, "INTERNAL_ERROR", "Internal server error")
  const ErrConflict := NewError(StatusConflict, "CONFLICT", "Resource conflict")

  /** The six predefined errors carry these status/code pairs and no details. */
  lemma PredefinedErrors()
    ensures ErrNotFound.statusCode == 404 && ErrNotFound.code == "NOT_FOUND"
    ensures ErrBadRequest.statusCode == 400 && ErrBadRequest.code == "BAD_REQUEST"
    ensures ErrUnauthorized.statusCode == 401 && ErrUnauthorized.code == "UNAUTHORIZED"
    ensures ErrForbidden.statusCode == 403 && ErrForbidden.code == "FORBIDDEN"
    ensures ErrInternalError.statusCode == 500 && ErrInternalError.code == "INTERNAL_ERROR"
    ensures ErrConflict.statusCode == 409 && ErrConflict.code == "CONFLICT"
    ensures forall e :: e in Predefined() ==> e.details == ""
  {
  }

  function Predefined(): seq<Error>
  {
    [ErrNotFound, ErrBadRequest, ErrUnauthorized, ErrForbidden, ErrInternalError, ErrConflict]
  }

  /** `WithDetails`: a fresh error value equal to `e` except for its details. */
  function WithDetails(e: Error, details: string): (r: Error)
    ensures r.statusCode == e.statusCode && r.code == e.code && r.message == e.message
    ensures r.details == details
  {
    e.(details := details)
  }

  /** Attaching details twice keeps only the last ones, and attaching the empty
      details to a fresh error gives that error back. */
  lemma WithDetailsOverwrites(e: Error, first: string, second: string)
    ensures WithDetails(WithDetails(e, first), second) == WithDetails(e, second)
    ensures WithDetails(NewError(e.statusCode, e.code, e.message), "") == NewError(e.statusCode, e.code, e.message)
  {
  }

  /** `(*Error).Error()`: the message alone. */
  function ErrorText(e: Error): string
  {
    e.message
  }

  /** Details never show in an error's text. */
  lemma ErrorTextIgnoresDetails(e: Error, details: string)
    ensures ErrorText(WithDetails(e, details)) == ErrorText(e)
    ensures ErrorText(WithDetails(e, details)) == e.message
  {
  }

  /** A Go `error` value: a custom `*Error`, a foreign error with its text, or a
      foreign error made by `fmt.Errorf("<prefix>%w", inner)` that wraps another. */
  datatype GoError = Custom(err: Error) | Plain(text: string) | Wrapped(prefix: string, inner: GoError)

  /** `err.Error()`. */
  function Message(e: GoError): string
  {
    match e
    case Custom(c) => ErrorText(c)
    case Plain(t) => t
    case Wrapped(p, inner) => p + Message(inner)
  }

  /** The unwrap chain of an error: itself, then what it wraps, and so on. */
  function Chain(e: GoError): (c: seq<GoError>)
    ensures |c| >= 1 && c[0] == e
  {
    match e
    case Wrapped(_, inner) => [e] + Chain(inner)
    case _ => [e]
  }

  /** `errors.As(err, &customErr)`: the first custom error on the unwrap chain. */
  function AsCustom(e: GoError): (r: Option<Error>)
    ensures r.None? <==> forall i :: 0 <= i < |Chain(e)| ==> !Chain(e)[i].Custom?
    ensures r.Some? ==> exists i :: 0 <= i < |Chain(e)| && FirstCustomAt(Chain(e), i) && Chain(e)[i].err == r.value
  {
    match e
    case Custom(c) =>
      assert Chain(e) == [e];
      assert FirstCustomAt(Chain(e), 0);
      Some(c)
    case Plain(_) => None
    case Wrapped(_, inner) =>
      var r := AsCustom(inner);
      assert Chain(e) == [e] + Chain(inner);
      if r.Some? then
        var i :| 0 <= i < |Chain(inner)| && FirstCustomAt(Chain(inner), i) && Chain(inner)[i].err == r.value;
        assert FirstCustomAt(Chain(e), i + 1);
        r
      else r
  }

  /** Position `i` of `chain` holds a custom error and no earlier position does. */
  predicate FirstCustomAt(chain: seq<GoError>, i: int)
  {
    0 <= i < |chain| && chain[i].Custom? && forall j :: 0 <= j < i ==> !chain[j].Custom?
  }

  /** The gRPC status codes the translation can produce. */
  datatype GrpcCode = OK | InvalidArgument | Unauthenticated | PermissionDenied
                    | NotFound | AlreadyExists | Internal | Unavailable

  /** `httpStatusToGRPCCode`: a total map from HTTP status to gRPC code, in which
      only 200 becomes OK. */
  function HttpStatusToGrpcCode(status: int): (c: GrpcCode)
    ensures c == OK <==> status == StatusOK
  {
    if status == StatusOK then OK
    else if status == StatusBadRequest then InvalidArgument
    else if status == StatusUnauthorized then Unauthenticated
    else if status == StatusForbidden then PermissionDenied
    else if status == StatusNotFound then NotFound
    else if status == StatusConflict then AlreadyExists
    else if status == StatusInternalServerError then Internal
    else if status == StatusServiceUnavailable then Unavailable
    else Internal
  }

  /** The translation table, written as data: status and the code it maps to. */
  const GrpcTable: seq<(int, GrpcCode)> :=
    [ (200, OK), (400, InvalidArgument), (401, Unauthenticated), (403, PermissionDenied)
    , (404, NotFound), (409, AlreadyExists), (500, Internal), (503, Unavailable) ]

  /** The code of the first table entry at or after `i` for `status`, Internal
      when there is none. */
  function LookupTable(table: seq<(int, GrpcCode)>, status: int, i: nat): GrpcCode
    decreases |table| - i
  {
    if i >= |table| then Internal
    else if table[i].0 == status then table[i].1
    else LookupTable(table, status, i + 1)
  }

  /** The switch agrees with the table for every status: listed statuses get their
      entry, every other status gets Internal. */
  lemma GrpcCodeMatchesTable(status: int)
    ensures HttpStatusToGrpcCode(status) == LookupTable(GrpcTable, status, 0)
    ensures (forall i :: 0 <= i < |GrpcTable| ==> GrpcTable[i].0 != status)
              ==> HttpStatusToGrpcCode(status) == Internal
  {
    var t := GrpcTable;
    assert LookupTable(t, status, 8) == Internal;
    assert LookupTable(t, status, 7) == if status == 503 then Unavailable else Internal;
    assert LookupTable(t, status, 6) == if status == 500 then Internal else LookupTable(t, status, 7);
    assert LookupTable(t, status, 5) == if status == 409 then AlreadyExists else LookupTable(t, status, 6);
    assert LookupTable(t, status, 4) == if status == 404 then NotFound else LookupTable(t, status, 5);
    assert LookupTable(t, status, 3) == if status == 403 then PermissionDenied else LookupTable(t, status, 4);
    assert LookupTable(t, status, 2) == if status == 401 then Unauthenticated else LookupTable(t, status, 3);
    assert LookupTable(t, status, 1) == if status == 400 then InvalidArgument else LookupTable(t, status, 2);
  }

  /** No severity is lost: two different statuses share a code only when both
      end up as Internal. */
  lemma GrpcCodeDistinguishesStatuses(s1: int, s2: int)
    requires s1 != s2
    requires HttpStatusToGrpcCode(s1) == HttpStatusToGrpcCode(s2)
    ensures HttpStatusToGrpcCode(s1) == Internal
  {
  }

  /** An error of the RPC surface: a gRPC code with a message. */
  datatype Status = Status(code: GrpcCode, message: string)

  const InternalServerErrorText := "Internal server error"

  /** grpc's `status.Error`: an error carrying the code and message, except that
      the code OK yields no error at all. */
  function StatusError(code: GrpcCode, message: string): (r: Option<Status>)
    ensures r.None? <==> code == OK
    ensures r.Some? ==> r.value.code == code && r.value.message == message
  {
    if code == OK then None else Some(Status(code, message))
  }

  /** `ToGRPCError`: nil stays nil; a custom error anywhere on the unwrap chain
      yields its mapped code with its message (no error at all when the mapped code
      is OK); anything else collapses to Internal with a fixed text. */
  function ToGrpcError(err: Option<GoError>): (r: Option<Status>)
    ensures r.None? <==> err.None? || (AsCustom(err.value).Some? && AsCustom(err.value).value.statusCode == StatusOK)
    ensures err.Some? && AsCustom(err.value).Some? && AsCustom(err.value).value.statusCode != StatusOK ==>
              r == Some(Status(HttpStatusToGrpcCode(AsCustom(err.value).value.statusCode),
                               AsCustom(err.value).value.message))
    ensures err.Some? && AsCustom(err.value).None? ==> r == Some(Status(Internal, InternalServerErrorText))
  {
    match err
    case None => None
    case Some(e) =>
      match AsCustom(e)
      case Some(c) => StatusError(HttpStatusToGrpcCode(c.statusCode), c.message)
      case None => StatusError(Internal, InternalServerErrorText)
  }

  /** Details never cross to the RPC surface: errors that differ only in details
      translate alike, and a custom error with status 200 translates to no error. */
  lemma ToGrpcErrorDropsDetails(e: Error, d1: string, d2: string)
    ensures ToGrpcError(Some(Custom(WithDetails(e, d1)))) == ToGrpcError(Some(Custom(WithDetails(e, d2))))
    ensures e.statusCode != StatusOK ==>
              ToGrpcError(Some(Custom(WithDetails(e, d1)))) == Some(Status(HttpStatusToGrpcCode(e.statusCode), e.message))
    ensures e.statusCode == StatusOK ==> ToGrpcError(Some(Custom(WithDetails(e, d1)))).None?
  {
  }

  /** The text of a foreign error never reaches the RPC caller. */
  lemma {:induction false} ToGrpcErrorHidesForeignText(e: GoError, f: GoError)
    requires AsCustom(e).None? && AsCustom(f).None?
    ensures ToGrpcError(Some(e)) == ToGrpcError(Some(f)) == Some(Status(Internal, InternalServerErrorText))
  {
  }

  /** A custom error wrapped by `fmt.Errorf("...%w", ...)` is still found and mapped. */
  lemma {:induction false} ToGrpcErrorSeesThroughWrapping(prefix: string, e: Error)
    ensures ToGrpcError(Some(Wrapped(prefix, Custom(e)))) == ToGrpcError(Some(Custom(e)))
    ensures e.statusCode != StatusOK ==>
              ToGrpcError(Some(Wrapped(prefix, Custom(e)))) == Some(Status(HttpStatusToGrpcCode(e.statusCode), e.message))
    ensures e.statusCode == StatusOK ==> ToGrpcError(Some(Wrapped(prefix, Custom(e)))).None?
  {
    assert AsCustom(Custom(e)) == Some(e);
  }

  /** The predefined errors keep their severity on the RPC surface, whatever details they carry. */
  lemma PredefinedErrorsToGrpc(details: string)
    ensures ToGrpcError(Some(Custom(WithDetails(ErrNotFound, details)))).value.code == NotFound
    ensures ToGrpcError(Some(Custom(WithDetails(ErrBadRequest, details)))).value.code == InvalidArgument
    ensures ToGrpcError(Some(Custom(WithDetails(ErrUnauthorized, details)))).value.code == Unauthenticated
    ensures ToGrpcError(Some(Custom(WithDetails(ErrForbidden, details)))).value.code == PermissionDenied
    ensures ToGrpcError(Some(Custom(WithDetails(ErrInternalError, details)))).value.code == Internal
    ensures ToGrpcError(Some(Custom(WithDetails(ErrConflict, details)))).value.code == AlreadyExists
  {
  }
}

=== FILE: middleware.dfy ===
/** The authentication middleware of the HTTP gateway, as a per-request decision:
    either the request is rejected with an error, or the next handler is called
    with it, identity attached when the token validated. */
module Middleware {
  import opened Wrappers
  import opened Errors
  import opened Auth

  const UserIdKey := "user_id"
  const UserEmailKey := "user_email"
  const UserInfoKey := "user_info"
  const InvalidTokenDetails := "Invalid or expired token"

  /** What a middleware did with one request: the error it answered with, if any;
      the requests it passed to the next handler, one per invocation; and the
      tokens it asked the identity provider to validate. */
  datatype Decision = Decision(rejection: Option<Error>, forwarded: seq<Request>, validated: seq<string>)

  /** `context.WithValue`: a new binding shadowing older ones of the same key. */
  function WithValue(r: Request, key: string, v: ContextValue): Request
  {
    r.(context := r.context + [(key, v)])
  }

  /** `ctx.Value(key)`: the latest binding of `key`. */
  function Lookup(context: seq<(string, ContextValue)>, key: string): (v: Option<ContextValue>)
    ensures |context| > 0 && context[|context| - 1].0 == key ==> v == Some(context[|context| - 1].1)
    ensures |context| > 0 && context[|context| - 1].0 != key ==> v == Lookup(context[..|context| - 1], key)
    ensures v.None? <==> forall i :: 0 <= i < |context| ==> context[i].0 != key
  {
    if |context| == 0 then None
    else if context[|context| - 1].0 == key then Some(context[|context| - 1].1)
    else Lookup(context[..|context| - 1], key)
  }

  /** The request with the caller's identity bound under the three keys. */
  function WithIdentity(r: Request, info: UserInfo): (r': Request)
    ensures r'.authorization == r.authorization && r'.query == r.query
    ensures Lookup(r'.context, UserIdKey) == Some(Text(info.sub))
    ensures Lookup(r'.context, UserEmailKey) == Some(Text(info.email))
    ensures Lookup(r'.context, UserInfoKey) == Some(Info(info))
    ensures forall key | key != UserIdKey && key != UserEmailKey && key != UserInfoKey ::
              Lookup(r'.context, key) == Lookup(r.context, key)
  {
    var r1 := WithValue(r, UserIdKey, Text(info.sub));
    var r2 := WithValue(r1, UserEmailKey, Text(info.email));
    var r3 := WithValue(r2, UserInfoKey, Info(info));
    assert r3.context[..|r3.context| - 1] == r2.context;
    assert r2.context[..|r2.context| - 1] == r1.context;
    assert r1.context[..|r1.context| - 1] == r.context;
    r3
  }

  /** `Handle`: no token is a plain Unauthorized without asking the identity
      provider; a token it refuses is Unauthorized with details; otherwise the
      next handler runs once with the identity attached. */
  function Handle(z: ZitadelClient, endpoint: UserInfoEndpoint, r: Request): (d: Decision)
    ensures ExtractToken(r) == "" ==> d == Decision(Some(ErrUnauthorized), [], [])
    ensures ExtractToken(r) != "" ==> d.validated == [ExtractToken(r)]
    ensures d.rejection.None? <==> ExtractToken(r) != "" && ValidateToken(z, ExtractToken(r), endpoint).Success?
    ensures d.rejection.None? ==> d.forwarded == [WithIdentity(r, ValidateToken(z, ExtractToken(r), endpoint).value)]
    ensures d.rejection.Some? ==> d.forwarded == []
    ensures ExtractToken(r) != "" && ValidateToken(z, ExtractToken(r), endpoint).Failure? ==>
              d.rejection == Some(WithDetails(ErrUnauthorized, InvalidTokenDetails))
  {
    var token := ExtractToken(r);
    if token == "" then Decision(Some(ErrUnauthorized), [], [])
    else
      match ValidateToken(z, token, endpoint)
      case Failure(_) => Decision(Some(WithDetails(ErrUnauthorized, InvalidTokenDetails)), [], [token])
      case Success(info) => Decision(None, [WithIdentity(r, info)], [token])
  }

  /** `OptionalAuth`: never rejects; the next handler runs once, with identity
      attached when a token validated and with the request untouched otherwise. */
  function OptionalAuth(z: ZitadelClient, endpoint: UserInfoEndpoint, r: Request): (d: Decision)
    ensures d.rejection.None? && |d.forwarded| == 1
    ensures ExtractToken(r) == "" ==> d.forwarded == [r] && d.validated == []
    ensures ExtractToken(r) != "" ==> d.validated == [ExtractToken(r)]
    ensures ExtractToken(r) != "" && ValidateToken(z, ExtractToken(r), endpoint).Failure? ==> d.forwarded == [r]
    ensures ExtractToken(r) != "" && ValidateToken(z, ExtractToken(r), endpoint).Success? ==>
              d.forwarded == [WithIdentity(r, ValidateToken(z, ExtractToken(r), endpoint).value)]
  {
    var token := ExtractToken(r);
    if token == "" then Decision(None, [r], [])
    else
      match ValidateToken(z, token, endpoint)
      case Failure(_) => Decision(None, [r], [token])
      case Success(info) => Decision(None, [WithIdentity(r, info)], [token])
  }

  /** Exactly one of the two outcomes: `Handle` either answers or forwards once. */
  lemma HandleRejectsOrForwardsOnce(z: ZitadelClient, endpoint: UserInfoEndpoint, r: Request)
    ensures var d := Handle(z, endpoint, r);
            (d.rejection.Some? && |d.forwarded| == 0) || (d.rejection.None? && |d.forwarded| == 1)
    ensures Handle(z, endpoint, r).rejection.Some? ==>
              Handle(z, endpoint, r).rejection.value.statusCode == StatusUnauthorized
              && Handle(z, endpoint, r).rejection.value.code == "UNAUTHORIZED"
  {
  }

  /** The two middlewares agree wherever `Handle` lets the request through, and
      where `Handle` rejects, `OptionalAuth` forwards the request unchanged; both
      consult the identity provider for the same tokens. */
  lemma HandleAndOptionalAuthAgree(z: ZitadelClient, endpoint: UserInfoEndpoint, r: Request)
    ensures Handle(z, endpoint, r).validated == OptionalAuth(z, endpoint, r).validated
    ensures Handle(z, endpoint, r).rejection.None? ==>
              Handle(z, endpoint, r).forwarded == OptionalAuth(z, endpoint, r).forwarded
    ensures Handle(z, endpoint, r).rejection.Some? ==> OptionalAuth(z, endpoint, r).forwarded == [r]
  {
  }

  /** The identity the next handler sees is exactly what the identity provider
      returned for the normalised token. */
  lemma ForwardedIdentityIsProviderReply(z: ZitadelClient, endpoint: UserInfoEndpoint, r: Request)
    ensures Handle(z, endpoint, r).rejection.None? ==>
            var x := endpoint(UserInfoUrl(z), "Bearer " + Normalize(ExtractToken(r)));
            && x.Response? && x.status == 200 && x.body.Success?
            && Lookup(Handle(z, endpoint, r).forwarded[0].context, UserInfoKey) == Some(Info(x.body.value))
            && Lookup(Handle(z, endpoint, r).forwarded[0].context, UserIdKey) == Some(Text(x.body.value.sub))
  {
  }

  /** A request without any token is rejected by `Handle` and passed on as it is
      by `OptionalAuth`, and neither asks the identity provider. */
  lemma NoTokenNoProviderCall(z: ZitadelClient, endpoint: UserInfoEndpoint, q: seq<(string, string)>,
                              context: seq<(string, ContextValue)>)
    requires forall i :: 0 <= i < |q| ==> q[i].0 != "token"
    ensures Handle(z, endpoint, Request("", q, context)) == Decision(Some(ErrUnauthorized), [], [])
    ensures OptionalAuth(z, endpoint, Request("", q, context)) == Decision(None, [Request("", q, context)], [])
  {
  }
}

=== FILE: strings.dfy ===
/** The pieces of Go's `strings` and `unicode` packages the core relies on. */
module Strings {

  /** Number of occurrences of `c` in `s`. */
  function Count(s: string, c: char): nat
  {
    if |s| == 0 then 0 else (if s[0] == c then 1 else 0) + Count(s[1..], c)
  }

  /** `strings.Join`: the parts separated by `sep`. */
  function Join(parts: seq<string>, sep: string): string
  {
    if |parts| == 0 then ""
    else if |parts| == 1 then parts[0]
    else parts[0] + sep + Join(parts[1..], sep)
  }

  /** Joining one more part appends it after a separator. */
  lemma {:induction false} JoinSnoc(parts: seq<string>, last: string, sep: string)
    requires |parts| > 0
    ensures Join(parts + [last], sep) == Join(parts, sep) + sep + last
    decreases |parts|
  {
    if |parts| == 1 {
      assert (parts + [last])[1..] == [last];
    } else {
      assert (parts + [last])[1..] == parts[1..] + [last];
      JoinSnoc(parts[1..], last, sep);
    }
  }

  /** `strings.Split` with a one-character separator: the maximal separator-free
      pieces between occurrences of `sep`, so one more piece than occurrences. */
  function Split(s: string, sep: char): (parts: seq<string>)
    ensures |parts| == Count(s, sep) + 1
    ensures forall i :: 0 <= i < |parts| ==> sep !in parts[i]
    ensures Join(parts, [sep]) == s
  {
    if |s| == 0 then [""]
    else
      var rest := Split(s[1..], sep);
      if s[0] == sep then
        assert s == [sep] + s[1..];
        [""] + rest
      else
        var head := [s[0]] + rest[0];
        assert Join([head] + rest[1..], [sep]) == [s[0]] + Join(rest, [sep]) by {
          if |rest| > 1 {
            assert ([head] + rest[1..])[1..] == rest[1..];
          }
        }
        [head] + rest[1..]
  }

  /** Splitting a separator-free piece followed by the separator peels that piece off. */
  lemma {:induction false} SplitPrefix(a: string, sep: char, b: string)
    requires sep !in a
    ensures Split(a + [sep] + b, sep) == [a] + Split(b, sep)
    decreases |a|
  {
    if |a| == 0 {
      assert a + [sep] + b == [sep] + b;
      assert ([sep] + b)[1..] == b;
    } else {
      assert (a + [sep] + b)[1..] == a[1..] + [sep] + b;
      SplitPrefix(a[1..], sep, b);
      assert [a[0]] + a[1..] == a;
    }
  }

  /** A separator-free string splits into itself. */
  lemma {:induction false} SplitNoSeparator(a: string, sep: char)
    requires sep !in a
    ensures Split(a, sep) == [a]
    decreases |a|
  {
    if |a| > 0 {
      SplitNoSeparator(a[1..], sep);
      assert [a[0]] + a[1..] == a;
    }
  }

  /** The other half of the round trip: joining separator-free parts and splitting
      the result again gives back the parts. */
  lemma {:induction false} SplitJoin(parts: seq<string>, sep: char)
    requires |parts| >= 1
    requires forall i :: 0 <= i < |parts| ==> sep !in parts[i]
    ensures Split(Join(parts, [sep]), sep) == parts
    decreases |parts|
  {
    if |parts| == 1 {
      SplitNoSeparator(parts[0], sep);
    } else {
      SplitJoin(parts[1..], sep);
      SplitPrefix(parts[0], sep, Join(parts[1..], [sep]));
      assert [parts[0]] + parts[1..] == parts;
    }
  }

  /** ASCII lower-casing of one character; other characters are left alone. */
  function LowerChar(c: char): char
  {
    if 'A' <= c <= 'Z' then (c as int + 32) as char else c
  }

  /** `strings.ToLower`, restricted to ASCII letters. */
  function ToLower(s: string): (r: string)
    ensures |r| == |s|
    ensures forall i :: 0 <= i < |s| ==> r[i] == LowerChar(s[i])
  {
    seq(|s|, i requires 0 <= i < |s| => LowerChar(s[i]))
  }

  /** `strings.TrimPrefix`: drops one leading occurrence of `prefix`, if present. */
  function TrimPrefix(s: string, prefix: string): (r: string)
    ensures prefix <= s ==> prefix + r == s
    ensures !(prefix <= s) ==> r == s
  {
    if prefix <= s then s[|prefix|..] else s
  }

  /** Go's `unicode.IsSpace`: the Unicode White_Space characters. */
  predicate IsSpace(c: char)
  {
    || c == ' ' || c == '\t' || c == '\n' || c == '\U{0B}' || c == '\U{0C}' || c == '\r'
    || c == '\U{85}' || c == '\U{A0}' || c == '\U{1680}'
    || ('\U{2000}' <= c <= '\U{200A}')
    || c == '\U{2028}' || c == '\U{2029}' || c == '\U{202F}' || c == '\U{205F}' || c == '\U{3000}'
  }

  /** The end of the run of characters satisfying `p` that starts at `i`. */
  function RunFrom(s: string, p: char -> bool, i: nat): (j: nat)
    requires i <= |s|
    ensures i <= j <= |s|
    ensures forall k :: i <= k < j ==> p(s[k])
    ensures j == |s| || !p(s[j])
    decreases |s| - i
  {
    if i < |s| && p(s[i]) then RunFrom(s, p, i + 1) else i
  }

  /** The start of the run of characters satisfying `p` that ends just before `j`. */
  function RunTo(s: string, p: char -> bool, j: nat): (i: nat)
    requires j <= |s|
    ensures i <= j
    ensures forall k :: i <= k < j ==> p(s[k])
    ensures i == 0 || !p(s[i - 1])
  {
    if j > 0 && p(s[j - 1]) then RunTo(s, p, j - 1) else j
  }

  /** `strings.TrimLeftFunc`: the suffix of `s` that starts at its first
      character not satisfying `p`. */
  function TrimLeftFunc(s: string, p: char -> bool): (r: string)
    ensures |r| <= |s| && r == s[|s| - |r|..]
    ensures forall k :: 0 <= k < |s| - |r| ==> p(s[k])
    ensures |r| == 0 || !p(r[0])
  {
    s[RunFrom(s, p, 0)..]
  }

  /** `strings.TrimRightFunc`: the prefix of `s` that ends at its last character
      not satisfying `p`. */
  function TrimRightFunc(s: string, p: char -> bool): (r: string)
    ensures |r| <= |s| && r == s[..|r|]
    ensures forall k :: |r| <= k < |s| ==> p(s[k])
    ensures |r| == 0 || !p(r[|r| - 1])
  {
    s[..RunTo(s, p, |s|)]
  }

  /** `r` occurs in `s` at index `i`, and every character around that occurrence
      satisfies `p`. */
  predicate Surrounded(s: string, r: string, i: int, p: char -> bool)
  {
    && 0 <= i <= |s| - |r| && r == s[i..i + |r|]
    && (forall k :: 0 <= k < i ==> p(s[k]))
    && (forall k :: i + |r| <= k < |s| ==> p(s[k]))
  }

  /** `strings.TrimFunc`: what is left once all leading and trailing characters
      satisfying `p` are removed; it starts where the leading run ends, and
      neither end of it satisfies `p`. */
  function TrimFunc(s: string, p: char -> bool): (r: string)
    ensures |r| == 0 || (!p(r[0]) && !p(r[|r| - 1]))
    ensures Surrounded(s, r, |s| - |TrimLeftFunc(s, p)|, p)
  {
    var left := TrimLeftFunc(s, p);
    SuffixPrefixSurrounded(s, left, TrimRightFunc(left, p), p);
    TrimRightFunc(left, p)
  }

  /** A run of `p` before a suffix, and a run of `p` after a prefix of that suffix,
      surround the prefix. */
  lemma SuffixPrefixSurrounded(s: string, left: string, r: string, p: char -> bool)
    requires |left| <= |s| && left == s[|s| - |left|..]
    requires forall k :: 0 <= k < |s| - |left| ==> p(s[k])
    requires |r| <= |left| && r == left[..|r|]
    requires forall k :: |r| <= k < |left| ==> p(left[k])
    ensures Surrounded(s, r, |s| - |left|, p)
  {
    var i := |s| - |left|;
    forall k | i + |r| <= k < |s| ensures p(s[k]) {
      assert s[k] == left[k - i];
    }
  }

  /** Trimming twice trims nothing more. */
  lemma TrimFuncIdempotent(s: string, p: char -> bool)
    ensures TrimFunc(TrimFunc(s, p), p) == TrimFunc(s, p)
  {
    var t := TrimFunc(s, p);
    assert t == [] + t + [];
    TrimFuncExact([], t, [], p);
  }

  /** Trimming removes exactly the runs of `p` around a core whose ends do not
      satisfy `p`. */
  lemma TrimFuncExact(a: string, m: string, b: string, p: char -> bool)
    requires forall k :: 0 <= k < |a| ==> p(a[k])
    requires forall k :: 0 <= k < |b| ==> p(b[k])
    requires |m| == 0 || (!p(m[0]) && !p(m[|m| - 1]))
    requires |m| > 0 || |b| == 0
    ensures TrimFunc(a + m + b, p) == m
  {
    var s := a + m + b;
    assert forall k :: 0 <= k < |a| ==> s[k] == a[k];
    assert |m| > 0 ==> s[|a|] == m[0];
    assert RunFrom(s, p, 0) == |a|;
    var left := s[|a|..];
    assert left == m + b;
    assert forall k :: |m| <= k < |left| ==> left[k] == b[k - |m|];
    assert |m| > 0 ==> left[|m| - 1] == m[|m| - 1];
    assert RunTo(left, p, |left|) == |m|;
  }

  /** `strings.TrimSpace`: trims Unicode white space from both ends; what is left
      sits in the input with only white space around it. */
  function TrimSpace(s: string): (r: string)
    ensures |r| == 0 || (!IsSpace(r[0]) && !IsSpace(r[|r| - 1]))
    ensures Surrounded(s, r, |s| - |TrimLeftFunc(s, IsSpace)|, IsSpace)
  {
    TrimFunc(s, IsSpace)
  }

  /** A string without white space at either end is its own trimming. */
  lemma TrimSpaceKeeps(t: string)
    requires |t| == 0 || (!IsSpace(t[0]) && !IsSpace(t[|t| - 1]))
    ensures TrimSpace(t) == t
  {
    assert t == [] + t + [];
    TrimFuncExact([], t, [], IsSpace);
  }
}

=== FILE: user_logic.dfy ===
/** The RPC adapters of the user service: each one calls the use case, passes
    its error through unchanged, and otherwise copies the user's fields into the
    response message. Timestamps are rendered by a formatter given as a parameter
    (RFC 3339 in the service). */
module UserLogic {
  import opened Wrappers
  import opened Errors
  import opened Domain
  import opened UserRepo
  import UC = UserUsecase

  datatype CreateUserReq = CreateUserReq(email: string, name: string)
  datatype GetUserReq = GetUserReq(id: int)
  datatype GetUsersReq = GetUsersReq(page: Int64, pageSize: Int64)
  datatype UpdateUserReq = UpdateUserReq(id: int, email: string, name: string)
  datatype DeleteUserReq = DeleteUserReq(id: int)

  datatype CreateUserResp = CreateUserResp(id: int, email: string, name: string, createdAt: string)
  datatype GetUserResp = GetUserResp(id: int, email: string, name: string, createdAt: string, updatedAt: string)
  datatype GetUsersResp = GetUsersResp(users: seq<GetUserResp>, total: int, page: Int64, pageSize: Int64)
  datatype UpdateUserResp = UpdateUserResp(id: int, email: string, name: string, updatedAt: string)
  datatype DeleteUserResp = DeleteUserResp(success: bool)

  /** One user as the read endpoints render it. */
  function UserResp(u: User, format: Time -> string): (r: GetUserResp)
    ensures r.id == u.id && r.email == u.email && r.name == u.name
    ensures r.createdAt == format(u.createdAt) && r.updatedAt == format(u.updatedAt)
  {
    GetUserResp(u.id, u.email, u.name, format(u.createdAt), format(u.updatedAt))
  }

  /** `CreateUserLogic.CreateUser`; `t1` and `t2` are the two clock readings. */
  function CreateUser(db: Db, faults: Faults, t1: Time, t2: Time, format: Time -> string, req: CreateUserReq)
    : (o: UC.Outcome<CreateUserResp>)
    ensures var uc := UC.CreateUser(db, faults, req.email, req.name, t1, t2);
            && o.db == uc.db && o.calls == uc.calls
            && (uc.result.Failure? <==> o.result.Failure?)
            && (uc.result.Failure? ==> o.result.error == uc.result.error)
            && (uc.result.Success? ==>
                  o.result.value == CreateUserResp(uc.result.value.id, req.email, req.name, format(t1)))
  {
    var uc := UC.CreateUser(db, faults, req.email, req.name, t1, t2);
    match uc.result
    case Failure(e) => UC.Outcome(uc.db, uc.calls, Failure(e))
    case Success(u) => UC.Outcome(uc.db, uc.calls, Success(CreateUserResp(u.id, u.email, u.name, format(u.createdAt))))
  }

  /** `GetUserLogic.GetUser`. */
  function GetUser(db: Db, faults: Faults, format: Time -> string, req: GetUserReq): (o: UC.Outcome<GetUserResp>)
    ensures var uc := UC.GetUser(db, faults, req.id);
            && o.db == db && o.calls == uc.calls
            && (uc.result.Failure? <==> o.result.Failure?)
            && (uc.result.Failure? ==> o.result.error == uc.result.error)
            && (uc.result.Success? ==> o.result.value == UserResp(uc.result.value, format))
    ensures o.result.Success? ==> o.result.value.id == req.id
  {
    var uc := UC.GetUser(db, faults, req.id);
    match uc.result
    case Failure(e) => UC.Outcome(uc.db, uc.calls, Failure(e))
    case Success(u) => UC.Outcome(uc.db, uc.calls, Success(UserResp(u, format)))
  }

  /** The users of a page, rendered one by one in the same order. */
  function UsersResp(us: seq<User>, format: Time -> string): (rs: seq<GetUserResp>)
    ensures |rs| == |us|
    ensures forall i :: 0 <= i < |us| ==> rs[i] == UserResp(us[i], format)
  {
    seq(|us|, i requires 0 <= i < |us| => UserResp(us[i], format))
  }

  /** `GetUsersLogic.GetUsers`: the response echoes the paging inputs of the
      request as they were given, not the clamped values the repository saw. */
  function GetUsers(db: Db, faults: Faults, format: Time -> string, req: GetUsersReq): (o: UC.Outcome<GetUsersResp>)
    ensures var uc := UC.GetUsers(db, faults, req.page, req.pageSize);
            && o.db == db && o.calls == uc.calls
            && (uc.result.Failure? <==> o.result.Failure?)
            && (uc.result.Failure? ==> o.result.error == uc.result.error)
            && (uc.result.Success? ==>
                  && o.result.value.total == uc.result.value.1
                  && o.result.value.users == UsersResp(uc.result.value.0, format))
    ensures o.result.Success? ==>
              o.result.value.page == req.page && o.result.value.pageSize == req.pageSize
              && o.result.value.total == |db.rows|
  {
    var uc := UC.GetUsers(db, faults, req.page, req.pageSize);
    match uc.result
    case Failure(e) => UC.Outcome(uc.db, uc.calls, Failure(e))
    case Success((us, total)) =>
      UC.Outcome(uc.db, uc.calls, Success(GetUsersResp(UsersResp(us, format), total, req.page, req.pageSize)))
  }

  /** `UpdateUserLogic.UpdateUser`. */
  function UpdateUser(db: Db, faults: Faults, now: Time, format: Time -> string, req: UpdateUserReq)
    : (o: UC.Outcome<UpdateUserResp>)
    ensures var uc := UC.UpdateUser(db, faults, req.id, req.email, req.name, now);
            && o.db == uc.db && o.calls == uc.calls
            && (uc.result.Failure? <==> o.result.Failure?)
            && (uc.result.Failure? ==> o.result.error == uc.result.error)
            && (uc.result.Success? ==>
                  o.result.value == UpdateUserResp(req.id, uc.result.value.email, uc.result.value.name, format(now)))
  {
    var uc := UC.UpdateUser(db, faults, req.id, req.email, req.name, now);
    match uc.result
    case Failure(e) => UC.Outcome(uc.db, uc.calls, Failure(e))
    case Success(u) => UC.Outcome(uc.db, uc.calls, Success(UpdateUserResp(u.id, u.email, u.name, format(u.updatedAt))))
  }

  /** `DeleteUserLogic.DeleteUser`. */
  function DeleteUser(db: Db, faults: Faults, req: DeleteUserReq): (o: UC.Outcome<DeleteUserResp>)
    ensures var uc := UC.DeleteUser(db, faults, req.id);
            && o.db == uc.db && o.calls == uc.calls
            && (uc.result.Failure? ==> o.result == Failure(uc.result.error))
            && (o.result == Success(DeleteUserResp(true)) <==> uc.result.Success?)
  {
    var uc := UC.DeleteUser(db, faults, req.id);
    match uc.result
    case Failure(e) => UC.Outcome(uc.db, uc.calls, Failure(e))
    case Success(_) => UC.Outcome(uc.db, uc.calls, Success(DeleteUserResp(true)))
  }

  // ---------------------------------------------------------------- properties

  /** Out-of-range paging is clamped for the repository but echoed to the caller. */
  lemma GetUsersEchoesUnclampedPaging(db: Db, faults: Faults, format: Time -> string)
    requires CountUsers !in faults && SelectPage !in faults
    ensures var o := GetUsers(db, faults, format, GetUsersReq(0, 0));
            && o.calls == [UC.ListCall(1, 10)]
            && o.result.Success? && o.result.value.page == 0 && o.result.value.pageSize == 0
  {
  }

  /** A user created over RPC reads back over RPC with the same id, email, name
      and creation time. */
  lemma CreateThenGetOverRpc(db: Db, faults: Faults, t1: Time, t2: Time, format: Time -> string, req: CreateUserReq)
    requires Valid(db) && SelectById !in faults
    requires CreateUser(db, faults, t1, t2, format, req).result.Success?
    ensures var c := CreateUser(db, faults, t1, t2, format, req);
            var g := GetUser(c.db, faults, format, GetUserReq(c.result.value.id));
            && g.result.Success?
            && g.result.value.id == c.result.value.id
            && g.result.value.email == c.result.value.email == req.email
            && g.result.value.name == c.result.value.name == req.name
            && g.result.value.createdAt == c.result.value.createdAt
            && g.result.value.updatedAt == format(t2)
  {
    UC.CreateThenGetUser(db, faults, req.email, req.name, t1, t2);
  }

  /** The error a caller sees for a missing user is the same on every endpoint
      that looks the user up first. */
  lemma MissingUserSameErrorEverywhere(db: Db, faults: Faults, now: Time, format: Time -> string, id: int,
                                       email: string, name: string)
    requires !HasId(db, id)
    ensures var e := WithDetails(ErrNotFound, UC.UserNotFoundDetails);
            && GetUser(db, faults, format, GetUserReq(id)).result == Failure(e)
            && UpdateUser(db, faults, now, format, UpdateUserReq(id, email, name)).result == Failure(e)
            && DeleteUser(db, faults, DeleteUserReq(id)).result == Failure(e)
  {
    assert GetById(db, faults, id).Failure?;
  }
}

=== FILE: user_repo.dfy ===
/** The user repository, over an abstract `users` table instead of SQL.

    The table is a sequence of rows in storage order plus the id sequence the
    store draws from. A row may fail to scan into a `User` (a column value the
    driver cannot convert); it then carries the driver's conversion error. Any
    round trip can fail: `Faults` names the statements whose round trip fails
    and the driver's error text, and the fetches of a page's rows that fail
    after the page's statement itself went through. */
module UserRepo {
  import opened Wrappers
  import opened Errors
  import opened Domain

  /** A stored row: the user's columns, and the driver's conversion error when
      the row cannot be scanned. */
  datatype Row = Row(user: User, scanError: Option<string>)

  /** The `users` table in storage order, and the next value of its id sequence. */
  datatype Db = Db(rows: seq<Row>, nextId: int)

  /** The SQL statements the repository issues, one round trip each, and
      `FetchRow(k)`: fetching row `k` (from 0) of a page's result. */
  datatype Statement = InsertUser | SelectById | SelectByEmail | CountUsers | SelectPage | UpdateById | DeleteById
                     | FetchRow(index: nat)

  /** The round trips that fail, each with the driver's error text. */
  type Faults = map<Statement, string>

  const UserNotFoundText := "user not found"
  const UserNotFound := Plain(UserNotFoundText)

  /** PostgreSQL's refusals of a negative OFFSET or LIMIT, as lib/pq reports them. */
  const NegativeOffsetText := "pq: OFFSET must not be negative"
  const NegativeLimitText := "pq: LIMIT must not be negative"

  /** The store's invariant: ids are positive, distinct, and below the next
      value of the sequence. */
  predicate Valid(db: Db)
  {
    && db.nextId >= 1
    && (forall i :: 0 <= i < |db.rows| ==> 1 <= db.rows[i].user.id < db.nextId)
    && DistinctIds(db.rows)
  }

  predicate DistinctIds(rows: seq<Row>)
  {
    forall i, j :: 0 <= i < j < |rows| ==> rows[i].user.id != rows[j].user.id
  }

  predicate HasId(db: Db, id: int)
  {
    exists i :: 0 <= i < |db.rows| && db.rows[i].user.id == id
  }

  /** Every row scans. */
  predicate AllScan(db: Db)
  {
    forall i :: 0 <= i < |db.rows| ==> db.rows[i].scanError.None?
  }

  /** The failure of a round trip whose statement is in `faults`. */
  function Fault(faults: Faults, s: Statement): GoError
    requires s in faults
  {
    Plain(faults[s])
  }

  /** Index of the first row satisfying `p`, or `|rows|` when none does. */
  function FirstWhere(rows: seq<Row>, p: Row -> bool): (k: nat)
    ensures k <= |rows|
    ensures k < |rows| ==> p(rows[k])
    ensures forall i :: 0 <= i < k ==> !p(rows[i])
  {
    if |rows| == 0 then 0
    else if p(rows[0]) then 0
    else 1 + FirstWhere(rows[1..], p)
  }

  /** `rows.Scan` of one row into a User. */
  function Scan(row: Row): Result<User, GoError>
  {
    match row.scanError
    case None => Success(row.user)
    case Some(m) => Failure(Plain(m))
  }

  /** `QueryRowContext(...).Scan(...)`: the first matching row in storage order;
      no row at all is `sql.ErrNoRows`, reported as "user not found". */
  function QueryRow(db: Db, faults: Faults, s: Statement, p: Row -> bool): Result<User, GoError>
  {
    if s in faults then Failure(Fault(faults, s))
    else
      var k := FirstWhere(db.rows, p);
      if k == |db.rows| then Failure(UserNotFound) else Scan(db.rows[k])
  }

  /** `Create`: inserts the user with the next id of the sequence and writes that
      id back into the returned user; the other columns are stored as given. */
  function Create(db: Db, faults: Faults, u: User): (r: Result<(Db, User), GoError>)
    ensures r.Failure? <==> InsertUser in faults
    ensures r.Failure? ==> r.error == Fault(faults, InsertUser)
    ensures r.Success? ==>
              var (db', v) := r.value;
              && v == u.(id := v.id)
              && db'.rows == db.rows + [Row(v, None)]
              && (Valid(db) ==> Valid(db') && v.id > 0 && !HasId(db, v.id))
  {
    if InsertUser in faults then Failure(Fault(faults, InsertUser))
    else
      var v := u.(id := db.nextId);
      Success((Db(db.rows + [Row(v, None)], db.nextId + 1), v))
  }

  /** `GetByID`. */
  function GetById(db: Db, faults: Faults, id: int): (r: Result<User, GoError>)
    ensures SelectById in faults ==> r == Failure(Fault(faults, SelectById))
    ensures SelectById !in faults && !HasId(db, id) ==> r == Failure(UserNotFound)
    ensures r.Success? ==> r.value.id == id && Row(r.value, None) in db.rows
    ensures forall i | 0 <= i < |db.rows| && db.rows[i].user.id == id ::
              Valid(db) && SelectById !in faults ==> r == Scan(db.rows[i])
  {
    QueryRow(db, faults, SelectById, (row: Row) => row.user.id == id)
  }

  /** `GetByEmail`: when several rows share the email, the first in storage order. */
  function GetByEmail(db: Db, faults: Faults, email: string): (r: Result<User, GoError>)
    ensures SelectByEmail in faults ==> r == Failure(Fault(faults, SelectByEmail))
    ensures (SelectByEmail !in faults && forall i :: 0 <= i < |db.rows| ==> db.rows[i].user.email != email)
              ==> r == Failure(UserNotFound)
    ensures r.Success? ==> r.value.email == email && Row(r.value, None) in db.rows
    ensures forall i | 0 <= i < |db.rows| && db.rows[i].user.email == email ::
              SelectByEmail !in faults && UniqueEmails(db) ==> r == Scan(db.rows[i])
  {
    QueryRow(db, faults, SelectByEmail, (row: Row) => row.user.email == email)
  }

  /** No two rows share an email. */
  predicate UniqueEmails(db: Db)
  {
    forall i, j :: 0 <= i < j < |db.rows| ==> db.rows[i].user.email != db.rows[j].user.email
  }

  // ---------------------------------------------------------------- listing

  /** Newest first: `created_at` does not increase along the sequence. */
  predicate NewestFirst(rows: seq<Row>)
  {
    forall i, j :: 0 <= i < j < |rows| ==> rows[i].user.createdAt >= rows[j].user.createdAt
  }

  predicate UsersNewestFirst(us: seq<User>)
  {
    forall i, j :: 0 <= i < j < |us| ==> us[i].createdAt >= us[j].createdAt
  }

  /** Inserts `x` into a newest-first sequence, ahead of the rows no newer than it. */
  function InsertNewestFirst(x: Row, s: seq<Row>): (t: seq<Row>)
    requires NewestFirst(s)
    ensures NewestFirst(t)
    ensures |t| == |s| + 1
    ensures t[0] == x || (|s| > 0 && t[0] == s[0])
    ensures multiset(t) == multiset(s) + multiset{x}
  {
    if |s| == 0 || x.user.createdAt >= s[0].user.createdAt then [x] + s
    else
      var rest := InsertNewestFirst(x, s[1..]);
      var t := [s[0]] + rest;
      assert rest[0].user.createdAt <= s[0].user.createdAt;
      forall i, j | 0 <= i < j < |t| ensures t[i].user.createdAt >= t[j].user.createdAt {
        assert t[j] == rest[j - 1];
        if i > 0 {
          assert t[i] == rest[i - 1];
        } else if j > 1 {
          assert rest[0].user.createdAt >= rest[j - 1].user.createdAt;
        }
      }
      assert s == [s[0]] + s[1..];
      t
  }

  /** `ORDER BY created_at DESC`: a newest-first permutation of the rows. Rows with
      equal `created_at` keep their storage order; SQL leaves that order open. */
  function SortNewestFirst(s: seq<Row>): (t: seq<Row>)
    ensures NewestFirst(t)
    ensures multiset(t) == multiset(s)
    ensures |t| == |s|
  {
    if |s| == 0 then []
    else
      assert s == [s[0]] + s[1..];
      InsertNewestFirst(s[0], SortNewestFirst(s[1..]))
  }

  function Min(a: int, b: int): int
  {
    if a <= b then a else b
  }

  /** `LIMIT limit OFFSET offset`: at most `limit` rows starting at `offset`. */
  function Window(s: seq<Row>, offset: int, limit: int): (w: seq<Row>)
    requires offset >= 0 && limit >= 0
    ensures |w| <= limit
    ensures offset >= |s| ==> w == []
    ensures w == s[Min(offset, |s|)..Min(offset + limit, |s|)]
  {
    s[Min(offset, |s|)..Min(offset + limit, |s|)]
  }

  /** The scan loop: rows that fail to scan are skipped, the others kept in order. */
  function Decoded(rows: seq<Row>): (us: seq<User>)
    ensures |us| <= |rows|
  {
    if |rows| == 0 then []
    else
      match rows[0].scanError
      case None => [rows[0].user] + Decoded(rows[1..])
      case Some(_) => Decoded(rows[1..])
  }

  /** Every user the scan loop yields comes from a row that scans; and the loop
      keeps the rows' order, so newest-first rows give newest-first users. */
  lemma {:induction false} DecodedFromRows(rows: seq<Row>)
    ensures forall u :: u in Decoded(rows) ==> Row(u, None) in rows
    ensures NewestFirst(rows) ==> UsersNewestFirst(Decoded(rows))
  {
    if |rows| > 0 {
      DecodedFromRows(rows[1..]);
      var rest := Decoded(rows[1..]);
      forall u | u in rest ensures Row(u, None) in rows[1..] && (NewestFirst(rows) ==> u.createdAt <= rows[0].user.createdAt) {
        var j :| 0 <= j < |rows[1..]| && rows[1..][j] == Row(u, None);
        assert rows[j + 1] == Row(u, None);
      }
    }
  }

  /** Scanning distributes over concatenation. */
  lemma {:induction false} DecodedAppend(a: seq<Row>, b: seq<Row>)
    ensures Decoded(a + b) == Decoded(a) + Decoded(b)
    decreases |a|
  {
    if |a| > 0 {
      assert (a + b)[0] == a[0];
      assert (a + b)[1..] == a[1..] + b;
      DecodedAppend(a[1..], b);
    } else {
      assert a + b == b;
    }
  }

  /** When every row scans, nothing is skipped. */
  lemma {:induction false} DecodedKeepsAll(rows: seq<Row>)
    requires forall i :: 0 <= i < |rows| ==> rows[i].scanError.None?
    ensures |Decoded(rows)| == |rows|
    ensures forall i :: 0 <= i < |rows| ==> Decoded(rows)[i] == rows[i].user
  {
    if |rows| > 0 {
      DecodedKeepsAll(rows[1..]);
    }
  }

  /** How many of a result's `n` rows the scan loop sees: `rows.Next` reports the
      end of the result at the first row whose fetch fails, and the loop never
      asks `rows.Err` whether that end was an error. */
  function Delivered(faults: Faults, n: nat): (k: nat)
    ensures k <= n
    ensures k < n ==> FetchRow(k) in faults
    ensures forall i :: 0 <= i < k ==> FetchRow(i) !in faults
  {
    DeliveredFrom(faults, n, 0)
  }

  function DeliveredFrom(faults: Faults, n: nat, i: nat): (k: nat)
    requires i <= n
    ensures i <= k <= n
    ensures k < n ==> FetchRow(k) in faults
    ensures forall j :: i <= j < k ==> FetchRow(j) !in faults
    decreases n - i
  {
    if i == n || FetchRow(i) in faults then i else DeliveredFrom(faults, n, i + 1)
  }

  /** The users on the page at `offset` of size `limit`: the rows fetched before
      any failed fetch, skipping rows that fail to scan. */
  function PageAt(db: Db, faults: Faults, offset: int, limit: int): seq<User>
    requires offset >= 0 && limit >= 0
  {
    var w := Window(SortNewestFirst(db.rows), offset, limit);
    Decoded(w[..Delivered(faults, |w|)])
  }

  /** `List` once the OFFSET value is computed: a count of all rows, then one
      page of rows newest first. A failed fetch part-way through the page ends
      the page early and is not reported. */
  function ListAt(db: Db, faults: Faults, offset: int, limit: int): (r: Result<(seq<User>, int), GoError>)
    ensures r.Success? ==> offset >= 0 && limit >= 0 && r.value == (PageAt(db, faults, offset, limit), |db.rows|)
    ensures r.Success? <==> CountUsers !in faults && SelectPage !in faults && offset >= 0 && limit >= 0
    ensures r.Failure? && CountUsers !in faults && SelectPage !in faults ==>
              r.error == Plain(if offset < 0 then NegativeOffsetText else NegativeLimitText)
  {
    if CountUsers in faults then Failure(Fault(faults, CountUsers))
    else if SelectPage in faults then Failure(Fault(faults, SelectPage))
    else if offset < 0 then Failure(Plain(NegativeOffsetText))
    else if limit < 0 then Failure(Plain(NegativeLimitText))
    else Success((PageAt(db, faults, offset, limit), |db.rows|))
  }

  /** A failed fetch goes unnoticed: the page is cut short, keeping a prefix of
      the page a complete fetch returns, and a failure on the first row leaves
      it empty. */
  lemma {:induction false} FetchFailureTruncatesPage(db: Db, faults: Faults, offset: int, limit: int)
    requires offset >= 0 && limit >= 0
    ensures PageAt(db, faults, offset, limit) <= PageAt(db, map[], offset, limit)
    ensures FetchRow(0) in faults ==> PageAt(db, faults, offset, limit) == []
  {
    var w := Window(SortNewestFirst(db.rows), offset, limit);
    var k := Delivered(faults, |w|);
    assert Delivered(map[], |w|) == |w|;
    assert w[..|w|] == w;
    DecodedSplit(w, k, |w|);
  }

  /** `List` with the OFFSET `(page-1)*pageSize` computed exactly. The total is
      the count of all rows; the page holds at most `pageSize` users, newest
      first, each one a scannable row of the table. */
  function List(db: Db, faults: Faults, page: Int64, pageSize: Int64): (r: Result<(seq<User>, int), GoError>)
    ensures r.Success? <==> CountUsers !in faults && SelectPage !in faults && (page - 1) * pageSize >= 0 && pageSize >= 0
    ensures r.Success? ==> r.value.1 == |db.rows|
    ensures r.Success? ==> |r.value.0| <= pageSize
    ensures r.Success? ==> UsersNewestFirst(r.value.0)
    ensures r.Success? ==> forall u :: u in r.value.0 ==> Row(u, None) in db.rows
    ensures r.Success? ==> r.value.0 == PageAt(db, faults, (page - 1) * pageSize, pageSize)
  {
    var res := ListAt(db, faults, (page - 1) * pageSize, pageSize);
    if res.Success? then
      PageAtFromTable(db, faults, (page - 1) * pageSize, pageSize);
      res
    else res
  }

  /** Every user on a page is a scannable row of the table, and a page is newest first. */
  lemma PageAtFromTable(db: Db, faults: Faults, offset: int, limit: int)
    requires offset >= 0 && limit >= 0
    ensures forall u :: u in PageAt(db, faults, offset, limit) ==> Row(u, None) in db.rows
    ensures UsersNewestFirst(PageAt(db, faults, offset, limit))
    ensures |PageAt(db, faults, offset, limit)| <= limit
  {
    var s := SortNewestFirst(db.rows);
    var w := Window(s, offset, limit);
    var f := w[..Delivered(faults, |w|)];
    DecodedFromRows(f);
    assert NewestFirst(f);
    forall u | u in PageAt(db, faults, offset, limit) ensures Row(u, None) in db.rows {
      assert Row(u, None) in f;
      assert Row(u, None) in w;
      assert Row(u, None) in multiset(s);
    }
  }

  /** `List` as written: the OFFSET `(page-1)*pageSize` is computed in `int64`
      and wraps around, so a large page can land on an earlier page or on a
      negative OFFSET, which the database refuses. */
  function ListAsWritten(db: Db, faults: Faults, page: Int64, pageSize: Int64): (r: Result<(seq<User>, int), GoError>)
    ensures r.Success? <==> CountUsers !in faults && SelectPage !in faults && pageSize >= 0
                            && Wrap64(Wrap64(page - 1) * pageSize) >= 0
    ensures r.Failure? && CountUsers !in faults && SelectPage !in faults && pageSize >= 0 ==>
              r.error == Plain(NegativeOffsetText)
    ensures r.Success? ==> r.value.1 == |db.rows| && |r.value.0| <= pageSize
    ensures r.Success? ==> UsersNewestFirst(r.value.0)
    ensures r.Success? ==> r.value.0 == PageAt(db, faults, Wrap64(Wrap64(page - 1) * pageSize), pageSize)
  {
    var offset := Wrap64(Wrap64(page - 1) * pageSize);
    var res := ListAt(db, faults, offset, pageSize);
    if res.Success? then
      PageAtFromTable(db, faults, offset, pageSize);
      res
    else res
  }

  /** The total does not depend on the page asked for. */
  lemma ListTotalIgnoresPage(db: Db, faults: Faults, p1: Int64, s1: Int64, p2: Int64, s2: Int64)
    ensures List(db, faults, p1, s1).Success? && List(db, faults, p2, s2).Success? ==>
              List(db, faults, p1, s1).value.1 == List(db, faults, p2, s2).value.1
  {
  }

  /** A page past the last row is empty, however large the page number. */
  lemma PageBeyondEndIsEmpty(db: Db, faults: Faults, page: Int64, pageSize: Int64)
    requires CountUsers !in faults && SelectPage !in faults
    requires page >= 1 && pageSize >= 1 && (page - 1) * pageSize >= |db.rows|
    ensures List(db, faults, page, pageSize) == Success(([], |db.rows|))
  {
    assert (page - 1) * pageSize >= 0;
  }

  /** The first `n` pages of size `size` of the sorted rows `s`, concatenated;
      page `k` (from 1) starts at `(k - 1) * size`, that is `Covered(size, k - 1)`. */
  function Pages(s: seq<Row>, size: nat, n: nat): seq<User>
  {
    if n == 0 then [] else Pages(s, size, n - 1) + Decoded(Window(s, Covered(size, n - 1), size))
  }

  /** How many rows the first `n` pages of size `size` span: `n * size`. */
  function Covered(size: nat, n: nat): (c: nat)
    ensures c == n * size
  {
    if n == 0 then 0 else Covered(size, n - 1) + size
  }

  /** Paging neither skips nor repeats a row: the first `n` pages together are
      exactly the scannable rows among the first `n * size`, in order. */
  lemma {:induction false} PagesTile(s: seq<Row>, size: nat, n: nat)
    ensures Pages(s, size, n) == Decoded(s[..Min(Covered(size, n), |s|)])
  {
    if n > 0 {
      PagesTile(s, size, n - 1);
      var m := Covered(size, n - 1);
      DecodedSplit(s, Min(m, |s|), Min(m + size, |s|));
    }
  }

  /** Scanning a prefix is scanning its two parts. */
  lemma DecodedSplit(s: seq<Row>, a: int, b: int)
    requires 0 <= a <= b <= |s|
    ensures Decoded(s[..b]) == Decoded(s[..a]) + Decoded(s[a..b])
  {
    assert s[..b] == s[..a] + s[a..b];
    DecodedAppend(s[..a], s[a..b]);
  }

  /** When the product `(page-1)*pageSize` fits in `int64`, the listing as written
      agrees with the exact one. */
  lemma ListAsWrittenAgreesInRange(db: Db, faults: Faults, page: Int64, pageSize: Int64)
    requires page > MinInt64
    requires MinInt64 <= (page - 1) * pageSize <= MaxInt64
    ensures ListAsWritten(db, faults, page, pageSize) == List(db, faults, page, pageSize)
  {
  }

  /** The wrap-around shows: with one row stored, page 2^62+1 of size 100 should
      be empty, but its OFFSET wraps to 0 and the row comes back. */
  lemma OffsetWrapCounterexample()
    ensures var u := User(1, "a@example.com", "A", 0, 0);
            var db := Db([Row(u, None)], 2);
            && ListAsWritten(db, map[], 0x4000_0000_0000_0001, 100) == Success(([u], 1))
            && List(db, map[], 0x4000_0000_0000_0001, 100) == Success(([], 1))
  {
    var u := User(1, "a@example.com", "A", 0, 0);
    var db := Db([Row(u, None)], 2);
    assert Wrap64(0x4000_0000_0000_0001 - 1) == 0x4000_0000_0000_0000;
    assert Wrap64(0x4000_0000_0000_0000 * 100) == 0;
    assert SortNewestFirst(db.rows) == db.rows;
    assert Window(db.rows, 0, 100) == db.rows;
    assert Decoded(db.rows) == [u];
    PageBeyondEndIsEmpty(db, map[], 0x4000_0000_0000_0001, 100);
  }

  /** The other face of the wrap-around: page 92233720368547760 of size 100 should
      be empty, but its OFFSET wraps to a negative number and the database refuses
      the query. */
  lemma NegativeOffsetWrapCounterexample(db: Db)
    ensures ListAsWritten(db, map[], 92233720368547760, 100) == Failure(Plain(NegativeOffsetText))
    ensures |db.rows| <= MaxInt64 ==> List(db, map[], 92233720368547760, 100) == Success(([], |db.rows|))
  {
    assert Wrap64(92233720368547760 - 1) == 92233720368547759;
    assert Wrap64(92233720368547759 * 100) == -9223372036854775716;
    if |db.rows| <= MaxInt64 {
      PageBeyondEndIsEmpty(db, map[], 92233720368547760, 100);
    }
  }

  // ---------------------------------------------------------------- writes

  /** One row after `UPDATE users SET email, name, updated_at WHERE id = u.id`. */
  function Patch(row: Row, u: User): Row
  {
    if row.user.id == u.id
    then row.(user := row.user.(email := u.email, name := u.name, updatedAt := u.updatedAt))
    else row
  }

  /** `Update`: rewrites email, name and updated_at of the row with `u`'s id; its
      id, created_at and every other row stay as they were. Zero affected rows is
      "user not found". */
  function Update(db: Db, faults: Faults, u: User): (r: Result<Db, GoError>)
    ensures UpdateById in faults ==> r == Failure(Fault(faults, UpdateById))
    ensures UpdateById !in faults ==> (r == Failure(UserNotFound) <==> !HasId(db, u.id))
    ensures r.Success? ==> HasId(db, u.id) && r.value.nextId == db.nextId && |r.value.rows| == |db.rows|
    ensures r.Success? ==> forall i :: 0 <= i < |db.rows| && db.rows[i].user.id != u.id ==> r.value.rows[i] == db.rows[i]
    ensures r.Success? ==> forall i :: 0 <= i < |db.rows| && db.rows[i].user.id == u.id ==>
              && r.value.rows[i].user == User(u.id, u.email, u.name, db.rows[i].user.createdAt, u.updatedAt)
              && r.value.rows[i].scanError == db.rows[i].scanError
    ensures r.Success? && Valid(db) ==> Valid(r.value)
  {
    if UpdateById in faults then Failure(Fault(faults, UpdateById))
    else if !HasId(db, u.id) then Failure(UserNotFound)
    else Success(Db(seq(|db.rows|, i requires 0 <= i < |db.rows| => Patch(db.rows[i], u)), db.nextId))
  }

  /** The rows whose id is not `id`, in their order. */
  function Without(rows: seq<Row>, id: int): (r: seq<Row>)
    ensures forall x :: x in r <==> x in rows && x.user.id != id
    ensures |r| <= |rows|
  {
    if |rows| == 0 then []
    else if rows[0].user.id == id then Without(rows[1..], id)
    else [rows[0]] + Without(rows[1..], id)
  }

  /** Nothing is dropped when no row has the id. */
  lemma {:induction false} WithoutAbsent(rows: seq<Row>, id: int)
    requires forall i :: 0 <= i < |rows| ==> rows[i].user.id != id
    ensures Without(rows, id) == rows
  {
    if |rows| > 0 {
      WithoutAbsent(rows[1..], id);
      assert rows == [rows[0]] + rows[1..];
    }
  }

  /** Dropping the rows with a given id keeps the ids distinct. */
  lemma {:induction false} WithoutDistinct(rows: seq<Row>, id: int)
    ensures DistinctIds(rows) ==> DistinctIds(Without(rows, id))
  {
    if |rows| > 0 && DistinctIds(rows) {
      var tail := rows[1..];
      TailDistinct(rows);
      WithoutDistinct(tail, id);
      if rows[0].user.id != id {
        forall x | x in Without(tail, id) ensures x.user.id != rows[0].user.id {
          var m :| 0 <= m < |tail| && tail[m] == x;
          assert rows[m + 1] == x;
        }
        ConsDistinct(rows[0], Without(tail, id));
      }
    }
  }

  lemma TailDistinct(rows: seq<Row>)
    requires |rows| > 0 && DistinctIds(rows)
    ensures DistinctIds(rows[1..])
  {
    var tail := rows[1..];
    forall i, j | 0 <= i < j < |tail| ensures tail[i].user.id != tail[j].user.id {
      assert tail[i] == rows[i + 1] && tail[j] == rows[j + 1];
    }
  }

  lemma ConsDistinct(a: Row, r: seq<Row>)
    requires DistinctIds(r) && forall x :: x in r ==> x.user.id != a.user.id
    ensures DistinctIds([a] + r)
  {
    var t := [a] + r;
    forall i, j | 0 <= i < j < |t| ensures t[i].user.id != t[j].user.id {
      assert t[j] == r[j - 1];
      if i > 0 {
        assert t[i] == r[i - 1];
      }
    }
  }

  /** Dropping the one row with a given id from rows with distinct ids removes
      exactly one row. */
  lemma {:induction false} WithoutRemovesOne(rows: seq<Row>, id: int, i: int)
    requires 0 <= i < |rows| && rows[i].user.id == id
    ensures DistinctIds(rows) ==> |Without(rows, id)| == |rows| - 1
  {
    if !DistinctIds(rows) {
      return;
    }
    var tail := rows[1..];
    TailDistinct(rows);
    if i == 0 {
      forall k | 0 <= k < |tail| ensures tail[k].user.id != id {
        assert tail[k] == rows[k + 1];
      }
      WithoutAbsent(tail, id);
    } else {
      assert tail[i - 1] == rows[i];
      WithoutRemovesOne(tail, id, i - 1);
    }
  }

  /** `Delete`: removes exactly the row with the given id. Zero affected rows is
      "user not found". */
  function Delete(db: Db, faults: Faults, id: int): (r: Result<Db, GoError>)
    ensures DeleteById in faults ==> r == Failure(Fault(faults, DeleteById))
    ensures DeleteById !in faults ==> (r == Failure(UserNotFound) <==> !HasId(db, id))
    ensures r.Success? ==> HasId(db, id) && !HasId(r.value, id)
    ensures r.Success? ==> forall x :: x in db.rows && x.user.id != id ==> x in r.value.rows
    ensures r.Success? ==> forall x :: x in r.value.rows ==> x in db.rows
    ensures r.Success? && Valid(db) ==> Valid(r.value) && |r.value.rows| == |db.rows| - 1
  {
    if DeleteById in faults then Failure(Fault(faults, DeleteById))
    else if !HasId(db, id) then Failure(UserNotFound)
    else
      var rest := Without(db.rows, id);
      WithoutDistinct(db.rows, id);
      var i :| 0 <= i < |db.rows| && db.rows[i].user.id == id;
      WithoutRemovesOne(db.rows, id, i);
      Success(Db(rest, db.nextId))
  }

  /** A second delete of the same id finds nothing to delete. */
  lemma DeleteTwiceNotFound(db: Db, faults: Faults, id: int)
    requires Delete(db, faults, id).Success?
    requires DeleteById !in faults
    ensures Delete(Delete(db, faults, id).value, faults, id) == Failure(UserNotFound)
  {
  }

  /** Insert then read back: the created user is found by its id, equal in every
      field, with a non-zero store-assigned id. */
  lemma CreateThenGetById(db: Db, faults: Faults, u: User)
    requires Valid(db) && InsertUser !in faults && SelectById !in faults
    ensures var (db', v) := Create(db, faults, u).value;
            GetById(db', faults, v.id) == Success(v) && v.id != 0
  {
    var (db', v) := Create(db, faults, u).value;
    var k := |db.rows|;
    assert db'.rows[k] == Row(v, None);
  }
}

=== FILE: user_usecase.dfy ===
/** The user use case: business rules over the repository. Every operation
    returns the store it leaves behind, the repository calls it made in order,
    and its result, a user-facing `Error` on failure. */
module UserUsecase {
  import opened Wrappers
  import opened Errors
  import opened Domain
  import opened UserRepo

  /** A repository call, with its arguments. */
  datatype Call = CreateCall(user: User) | GetByIdCall(id: int) | GetByEmailCall(email: string)
                | ListCall(page: Int64, pageSize: Int64) | UpdateCall(user: User) | DeleteCall(id: int)

  /** The store after the call, the repository calls made, and the result. */
  datatype Outcome<T> = Outcome(db: Db, calls: seq<Call>, result: Result<T, Error>)

  const EmailExistsDetails := "User with this email already exists"
  const EmailTakenDetails := "Email already taken"
  const UserNotFoundDetails := "User not found"

  /** `CreateUser`: refuses an email the lookup finds; otherwise stores a new user
      with both timestamps taken from the clock. A failed lookup counts as "no
      such user"; a failed insert is an internal error carrying the driver's text. */
  function CreateUser(db: Db, faults: Faults, email: string, name: string, createdAt: Time, updatedAt: Time)
    : (o: Outcome<User>)
    ensures GetByEmail(db, faults, email).Success? ==>
              o == Outcome(db, [GetByEmailCall(email)], Failure(WithDetails(ErrConflict, EmailExistsDetails)))
    ensures GetByEmail(db, faults, email).Failure? && InsertUser in faults ==>
              o.db == db && o.result == Failure(WithDetails(ErrInternalError, faults[InsertUser]))
    ensures o.result.Success? <==> GetByEmail(db, faults, email).Failure? && InsertUser !in faults
    ensures o.result.Failure? ==> o.db == db
    ensures o.result.Success? ==>
              var u := o.result.value;
              && u.email == email && u.name == name && u.createdAt == createdAt && u.updatedAt == updatedAt
              && o.db.rows == db.rows + [Row(u, None)]
              && (Valid(db) ==> Valid(o.db) && u.id > 0 && !HasId(db, u.id))
  {
    if GetByEmail(db, faults, email).Success? then
      Outcome(db, [GetByEmailCall(email)], Failure(WithDetails(ErrConflict, EmailExistsDetails)))
    else
      var user := User(0, email, name, createdAt, updatedAt);
      var calls := [GetByEmailCall(email), CreateCall(user)];
      match Create(db, faults, user)
      case Failure(e) => Outcome(db, calls, Failure(WithDetails(ErrInternalError, Message(e))))
      case Success((db', created)) => Outcome(db', calls, Success(created))
  }

  /** `GetUser`: any failure of the lookup, whatever its kind, is "not found". */
  function GetUser(db: Db, faults: Faults, id: int): (o: Outcome<User>)
    ensures o.db == db && o.calls == [GetByIdCall(id)]
    ensures o.result.Failure? ==> o.result.error == WithDetails(ErrNotFound, UserNotFoundDetails)
    ensures o.result.Success? <==> GetById(db, faults, id).Success?
    ensures o.result.Success? ==> o.result.value.id == id && Row(o.result.value, None) in db.rows
  {
    match GetById(db, faults, id)
    case Failure(_) => Outcome(db, [GetByIdCall(id)], Failure(WithDetails(ErrNotFound, UserNotFoundDetails)))
    case Success(u) => Outcome(db, [GetByIdCall(id)], Success(u))
  }

  /** The page number handed to the repository: at least 1, otherwise unchanged. */
  function ClampPage(page: Int64): (p: Int64)
    ensures p >= 1
    ensures page >= 1 ==> p == page
  {
    if page < 1 then 1 else page
  }

  /** The page size handed to the repository: within 1..100, defaulting to 10. */
  function ClampPageSize(pageSize: Int64): (s: Int64)
    ensures 1 <= s <= 100
    ensures 1 <= pageSize <= 100 ==> s == pageSize
    ensures pageSize < 1 ==> s == 10
    ensures pageSize > 100 ==> s == 100
  {
    var s := if pageSize < 1 then 10 else pageSize;
    if s > 100 then 100 else s
  }

  /** Clamping twice changes nothing more. */
  lemma ClampIdempotent(page: Int64, pageSize: Int64)
    ensures ClampPage(ClampPage(page)) == ClampPage(page)
    ensures ClampPageSize(ClampPageSize(pageSize)) == ClampPageSize(pageSize)
  {
  }

  /** `GetUsers`: clamps the paging inputs, then lists; the repository only ever
      sees a page of at least 1 and a size within 1..100. */
  function GetUsers(db: Db, faults: Faults, page: Int64, pageSize: Int64): (o: Outcome<(seq<User>, int)>)
    ensures o.db == db
    ensures o.calls == [ListCall(ClampPage(page), ClampPageSize(pageSize))]
    ensures o.calls[0].page >= 1 && 1 <= o.calls[0].pageSize <= 100
    ensures o.result.Failure? ==>
              o.result.error.statusCode == StatusInternalServerError && o.result.error.code == "INTERNAL_ERROR"
    ensures o.result.Success? <==> CountUsers !in faults && SelectPage !in faults
    ensures o.result.Success? ==> o.result.value.1 == |db.rows| && |o.result.value.0| <= 100
    ensures o.result.Success? ==> UsersNewestFirst(o.result.value.0)
    ensures o.result.Success? ==>
              o.result.value.0 == PageAt(db, faults, (ClampPage(page) - 1) * ClampPageSize(pageSize), ClampPageSize(pageSize))
  {
    var p := ClampPage(page);
    var s := ClampPageSize(pageSize);
    match List(db, faults, p, s)
    case Failure(e) => Outcome(db, [ListCall(p, s)], Failure(WithDetails(ErrInternalError, Message(e))))
    case Success(listed) => Outcome(db, [ListCall(p, s)], Success(listed))
  }

  /** `GetUsers` over the listing as written, whose OFFSET wraps around in
      `int64`: the clamping bounds the page only from below, so a page large
      enough fails with the database's refusal of a negative OFFSET. */
  function GetUsersAsWritten(db: Db, faults: Faults, page: Int64, pageSize: Int64): (o: Outcome<(seq<User>, int)>)
    ensures o.db == db
    ensures o.calls == [ListCall(ClampPage(page), ClampPageSize(pageSize))]
    ensures o.result.Success? <==> CountUsers !in faults && SelectPage !in faults
                                   && Wrap64(Wrap64(ClampPage(page) - 1) * ClampPageSize(pageSize)) >= 0
    ensures o.result.Failure? && CountUsers !in faults && SelectPage !in faults ==>
              o.result.error == WithDetails(ErrInternalError, NegativeOffsetText)
    ensures o.result.Failure? ==>
              o.result.error.statusCode == StatusInternalServerError && o.result.error.code == "INTERNAL_ERROR"
    ensures o.result.Success? ==> o.result.value.1 == |db.rows| && |o.result.value.0| <= 100
    ensures o.result.Success? ==> UsersNewestFirst(o.result.value.0)
    ensures o.result.Success? ==>
              o.result.value.0 == PageAt(db, faults, Wrap64(Wrap64(ClampPage(page) - 1) * ClampPageSize(pageSize)),
                                         ClampPageSize(pageSize))
  {
    var p := ClampPage(page);
    var s := ClampPageSize(pageSize);
    match ListAsWritten(db, faults, p, s)
    case Failure(e) => Outcome(db, [ListCall(p, s)], Failure(WithDetails(ErrInternalError, Message(e))))
    case Success(listed) => Outcome(db, [ListCall(p, s)], Success(listed))
  }

  /** The two agree whenever the OFFSET fits in `int64`. */
  lemma GetUsersAsWrittenAgrees(db: Db, faults: Faults, page: Int64, pageSize: Int64)
    requires (ClampPage(page) - 1) * ClampPageSize(pageSize) <= MaxInt64
    ensures GetUsersAsWritten(db, faults, page, pageSize) == GetUsers(db, faults, page, pageSize)
  {
    ListAsWrittenAgreesInRange(db, faults, ClampPage(page), ClampPageSize(pageSize));
  }

  /** A page past the end that the program refuses: page 92233720368547760 of
      size 100 is an internal error as written, and an empty page once the OFFSET
      is exact. */
  lemma GetUsersNegativeOffset(db: Db)
    requires |db.rows| <= MaxInt64
    ensures GetUsersAsWritten(db, map[], 92233720368547760, 100).result
            == Failure(WithDetails(ErrInternalError, NegativeOffsetText))
    ensures GetUsers(db, map[], 92233720368547760, 100).result == Success(([], |db.rows|))
  {
    NegativeOffsetWrapCounterexample(db);
  }

  /** Page 0 of size 0 is page 1 of size 10; any size above 100 is size 100. */
  lemma GetUsersDefaults(db: Db, faults: Faults, page: Int64, pageSize: Int64)
    ensures GetUsers(db, faults, 0, 0) == GetUsers(db, faults, 1, 10)
    ensures page < 1 ==> GetUsers(db, faults, page, pageSize) == GetUsers(db, faults, 1, pageSize)
    ensures pageSize > 100 ==> GetUsers(db, faults, page, pageSize) == GetUsers(db, faults, page, 100)
    ensures pageSize < 1 ==> GetUsers(db, faults, page, pageSize) == GetUsers(db, faults, page, 10)
  {
  }

  /** The user `UpdateUser` writes: the stored one with a non-empty email and a
      non-empty name replacing the old ones, and a fresh update time. */
  function Patched(stored: User, email: string, name: string, now: Time): User
  {
    stored.(email := if email != "" then email else stored.email,
            name := if name != "" then name else stored.name,
            updatedAt := now)
  }

  /** A non-empty email held by a user other than `id`, as the lookup sees it. */
  predicate TakenByOther(db: Db, faults: Faults, id: int, email: string)
  {
    email != "" && GetByEmail(db, faults, email).Success? && GetByEmail(db, faults, email).value.id != id
  }

  /** `UpdateUser`: loads the user (any failure is "not found"), refuses an email
      another user holds, treats an empty email or name as "leave unchanged",
      always refreshes the update time, and writes the result back. */
  function UpdateUser(db: Db, faults: Faults, id: int, email: string, name: string, now: Time)
    : (o: Outcome<User>)
    ensures GetById(db, faults, id).Failure? ==>
              o == Outcome(db, [GetByIdCall(id)], Failure(WithDetails(ErrNotFound, UserNotFoundDetails)))
    ensures GetById(db, faults, id).Success? ==>
              (o.result == Failure(WithDetails(ErrConflict, EmailTakenDetails)) <==> TakenByOther(db, faults, id, email))
    ensures o.result.Failure? ==> o.db == db
    ensures o.result.Success? ==>
              var stored := GetById(db, faults, id).value;
              var u := o.result.value;
              && GetById(db, faults, id).Success?
              && u.id == id == stored.id
              && u.email == (if email == "" then stored.email else email)
              && u.name == (if name == "" then stored.name else name)
              && u.createdAt == stored.createdAt
              && u.updatedAt == now
    ensures o.result.Success? ==> Update(db, faults, o.result.value) == Success(o.db)
    ensures o.result.Success? ==>
              && o.db.nextId == db.nextId && |o.db.rows| == |db.rows|
              && forall i :: 0 <= i < |db.rows| ==>
                   o.db.rows[i] == if db.rows[i].user.id == id
                                   then db.rows[i].(user := o.result.value.(createdAt := db.rows[i].user.createdAt))
                                   else db.rows[i]
    ensures o.result.Success? && Valid(db) ==> Valid(o.db)
    ensures GetById(db, faults, id).Success? && !TakenByOther(db, faults, id, email) && UpdateById in faults ==>
              o.result == Failure(WithDetails(ErrInternalError, faults[UpdateById]))
  {
    match GetById(db, faults, id)
    case Failure(_) => Outcome(db, [GetByIdCall(id)], Failure(WithDetails(ErrNotFound, UserNotFoundDetails)))
    case Success(stored) =>
      var lookups := [GetByIdCall(id)] + (if email != "" then [GetByEmailCall(email)] else []);
      if TakenByOther(db, faults, id, email) then
        Outcome(db, lookups, Failure(WithDetails(ErrConflict, EmailTakenDetails)))
      else
        var u := Patched(stored, email, name, now);
        match Update(db, faults, u)
        case Failure(e) => Outcome(db, lookups + [UpdateCall(u)], Failure(WithDetails(ErrInternalError, Message(e))))
        case Success(db') => Outcome(db', lookups + [UpdateCall(u)], Success(u))
  }

  /** `DeleteUser`: a missing user is "not found" before any write; a failed
      delete is an internal error. */
  function DeleteUser(db: Db, faults: Faults, id: int): (o: Outcome<()>)
    ensures GetById(db, faults, id).Failure? ==>
              o == Outcome(db, [GetByIdCall(id)], Failure(WithDetails(ErrNotFound, UserNotFoundDetails)))
    ensures GetById(db, faults, id).Success? && DeleteById in faults ==>
              o == Outcome(db, [GetByIdCall(id), DeleteCall(id)], Failure(WithDetails(ErrInternalError, faults[DeleteById])))
    ensures o.result.Success? <==> GetById(db, faults, id).Success? && DeleteById !in faults
    ensures o.result.Success? ==> !HasId(o.db, id) && (forall x :: x in db.rows && x.user.id != id ==> x in o.db.rows)
    ensures o.result.Success? && Valid(db) ==> Valid(o.db) && |o.db.rows| == |db.rows| - 1
    ensures o.result.Failure? ==> o.db == db
  {
    match GetById(db, faults, id)
    case Failure(_) => Outcome(db, [GetByIdCall(id)], Failure(WithDetails(ErrNotFound, UserNotFoundDetails)))
    case Success(_) =>
      match Delete(db, faults, id)
      case Failure(e) => Outcome(db, [GetByIdCall(id), DeleteCall(id)], Failure(WithDetails(ErrInternalError, Message(e))))
      case Success(db') => Outcome(db', [GetByIdCall(id), DeleteCall(id)], Success(()))
  }

  // ---------------------------------------------------------------- properties

  /** A created user can be read back by its id, unchanged. */
  lemma CreateThenGetUser(db: Db, faults: Faults, email: string, name: string, t1: Time, t2: Time)
    requires Valid(db) && SelectById !in faults
    requires CreateUser(db, faults, email, name, t1, t2).result.Success?
    ensures var o := CreateUser(db, faults, email, name, t1, t2);
            GetUser(o.db, faults, o.result.value.id).result == Success(o.result.value)
  {
    var o := CreateUser(db, faults, email, name, t1, t2);
    var u := o.result.value;
    assert o.db.rows[|db.rows|] == Row(u, None);
  }

  /** An email the lookup finds is refused, and nothing is inserted. */
  lemma CreateDuplicateRefused(db: Db, faults: Faults, email: string, name: string, t1: Time, t2: Time, i: int)
    requires SelectByEmail !in faults && UniqueEmails(db)
    requires 0 <= i < |db.rows| && db.rows[i].user.email == email && db.rows[i].scanError.None?
    ensures CreateUser(db, faults, email, name, t1, t2)
            == Outcome(db, [GetByEmailCall(email)], Failure(WithDetails(ErrConflict, EmailExistsDetails)))
  {
  }

  /** With a clean store and a working lookup, creating keeps emails unique. */
  lemma CreateKeepsEmailsUnique(db: Db, faults: Faults, email: string, name: string, t1: Time, t2: Time)
    requires UniqueEmails(db) && AllScan(db) && SelectByEmail !in faults
    ensures UniqueEmails(CreateUser(db, faults, email, name, t1, t2).db)
  {
    var o := CreateUser(db, faults, email, name, t1, t2);
    if o.result.Success? {
      forall i, j | 0 <= i < j < |o.db.rows| ensures o.db.rows[i].user.email != o.db.rows[j].user.email {
        if j == |db.rows| {
          assert o.db.rows[i] == db.rows[i];
        } else {
          assert o.db.rows[i] == db.rows[i] && o.db.rows[j] == db.rows[j];
        }
      }
    }
  }

  /** The lookup's error is ignored: when it fails, a second user with the same
      email is created. Uniqueness then rests on the store's own constraint. */
  lemma LookupFailureAdmitsDuplicate()
    ensures var db := Db([Row(User(1, "a@example.com", "A", 0, 0), None)], 2);
            var faults := map[SelectByEmail := "pq: connection reset"];
            var o := CreateUser(db, faults, "a@example.com", "B", 5, 5);
            o.result.Success? && !UniqueEmails(o.db)
  {
    var db := Db([Row(User(1, "a@example.com", "A", 0, 0), None)], 2);
    var o := CreateUser(db, map[SelectByEmail := "pq: connection reset"], "a@example.com", "B", 5, 5);
    assert o.db.rows[0].user.email == o.db.rows[1].user.email;
  }

  /** An empty email and an empty name change nothing but the update time, and
      the change is what a later read returns. */
  lemma UpdateThenGetUser(db: Db, faults: Faults, id: int, email: string, name: string, now: Time)
    requires Valid(db) && SelectById !in faults
    requires UpdateUser(db, faults, id, email, name, now).result.Success?
    ensures var o := UpdateUser(db, faults, id, email, name, now);
            GetUser(o.db, faults, id).result == Success(o.result.value)
  {
    var o := UpdateUser(db, faults, id, email, name, now);
    var k := FirstWhere(db.rows, (row: Row) => row.user.id == id);
    assert db.rows[k].user.id == id;
    assert GetById(db, faults, id) == Scan(db.rows[k]);
    assert o.db.rows[k].user == o.result.value;
    assert GetById(o.db, faults, id) == Scan(o.db.rows[k]);
  }

  /** Re-submitting a user's own email is not a conflict. */
  lemma UpdateOwnEmailSucceeds(db: Db, faults: Faults, i: int, name: string, now: Time)
    requires Valid(db) && UniqueEmails(db) && faults == map[]
    requires 0 <= i < |db.rows| && db.rows[i].scanError.None?
    ensures var u := db.rows[i].user;
            UpdateUser(db, faults, u.id, u.email, name, now).result.Success?
  {
    var u := db.rows[i].user;
    assert GetById(db, faults, u.id) == Scan(db.rows[i]);
    if u.email != "" {
      assert GetByEmail(db, faults, u.email) == Scan(db.rows[i]);
    }
    assert HasId(db, u.id);
  }

  /** With a clean store and a working lookup, updating keeps emails unique. */
  lemma UpdateKeepsEmailsUnique(db: Db, faults: Faults, id: int, email: string, name: string, now: Time)
    requires Valid(db) && UniqueEmails(db) && AllScan(db) && SelectByEmail !in faults
    ensures UniqueEmails(UpdateUser(db, faults, id, email, name, now).db)
  {
    var o := UpdateUser(db, faults, id, email, name, now);
    if o.result.Success? {
      var u := o.result.value;
      var k := FirstWhere(db.rows, (row: Row) => row.user.id == id);
      assert db.rows[k].user.id == id;
      forall i | 0 <= i < |o.db.rows| ensures o.db.rows[i].user.email == (if i == k then u.email else db.rows[i].user.email) {
        if i != k {
          assert db.rows[i].user.id != id;
        }
      }
    }
  }

  /** Deleting twice: the second call is "not found". */
  lemma DeleteUserTwice(db: Db, faults: Faults, id: int)
    requires DeleteUser(db, faults, id).result.Success?
    requires SelectById !in faults
    ensures var o := DeleteUser(db, faults, id);
            DeleteUser(o.db, faults, id).result == Failure(WithDetails(ErrNotFound, UserNotFoundDetails))
            && DeleteUser(o.db, faults, id).db == o.db
  {
  }

  /** A row that fails to scan can be neither read, updated nor deleted: the
      use case reports it as "not found" although the row exists. */
  lemma UnscannableRowIsNotFound(db: Db, faults: Faults, i: int, email: string, name: string, now: Time)
    requires Valid(db) && SelectById !in faults
    requires 0 <= i < |db.rows| && db.rows[i].scanError.Some?
    ensures var id := db.rows[i].user.id;
            && GetUser(db, faults, id).result == Failure(WithDetails(ErrNotFound, UserNotFoundDetails))
            && UpdateUser(db, faults, id, email, name, now).db == db
            && DeleteUser(db, faults, id).result == Failure(WithDetails(ErrNotFound, UserNotFoundDetails))
  {
    assert GetById(db, faults, db.rows[i].user.id) == Scan(db.rows[i]);
  }
}

=== FILE: validator.dfy ===
/** The validation-message formatter of the request validator: per-rule phrases,
    one entry per failed field, and the field-name function that reads the json
    tag. The struct checking itself belongs to the validation library. */
module Validator {
  import opened Wrappers
  import opened Strings
  import opened Errors

  /** One failed rule: the field's reported name, the rule's tag and its parameter. */
  datatype FieldError = FieldError(field: string, tag: string, param: string)

  /** What the library returned: a list of field errors, or some other error. */
  datatype ValidateError = FieldErrors(errors: seq<FieldError>) | OtherError(err: GoError)

  const RequiredText := "is required"
  const EmailText := "must be a valid email address"
  const MinPrefix := "must be at least "
  const MaxPrefix := "must be at most "
  const LenPrefix := "must be exactly "
  const LenSuffix := " characters"
  const OneofPrefix := "must be one of: "
  const OtherPrefix := "failed validation rule: "

  /** `getValidationMessage`: a fixed phrase for the known rules, naming the
      parameter where the rule has one, and the rule's tag otherwise. */
  function ValidationMessage(fe: FieldError): (m: string)
    ensures fe.tag == "required" ==> m == RequiredText
    ensures fe.tag == "email" ==> m == EmailText
    ensures fe.tag == "min" ==> MinPrefix <= m && m[|MinPrefix|..] == fe.param
    ensures fe.tag == "max" ==> MaxPrefix <= m && m[|MaxPrefix|..] == fe.param
    ensures fe.tag == "len" ==> m == LenPrefix + fe.param + LenSuffix
    ensures fe.tag == "oneof" ==> OneofPrefix <= m && m[|OneofPrefix|..] == fe.param
    ensures fe.tag !in KnownTags ==> OtherPrefix <= m && m[|OtherPrefix|..] == fe.tag
  {
    match fe.tag
    case "required" => RequiredText
    case "email" => EmailText
    case "min" => MinPrefix + fe.param
    case "max" => MaxPrefix + fe.param
    case "len" => LenPrefix + fe.param + LenSuffix
    case "oneof" => OneofPrefix + fe.param
    case _ => OtherPrefix + fe.tag
  }

  const KnownTags: set<string> := {"required", "email", "min", "max", "len", "oneof"}

  /** Tags whose phrase names the parameter. */
  predicate HasParam(tag: string)
  {
    tag == "min" || tag == "max" || tag == "len" || tag == "oneof"
  }

  /** Reads a message back into the rule it reports: the tag, and the parameter
      for the rules that name one. */
  function ParseMessage(m: string): (Option<(string, string)>)
  {
    if m == RequiredText then Some(("required", ""))
    else if m == EmailText then Some(("email", ""))
    else if MinPrefix <= m then Some(("min", m[|MinPrefix|..]))
    else if MaxPrefix <= m then Some(("max", m[|MaxPrefix|..]))
    else if LenPrefix <= m && |m| >= |LenPrefix| + |LenSuffix| && LenSuffix <= m[|m| - |LenSuffix|..]
    then Some(("len", m[|LenPrefix|..|m| - |LenSuffix|]))
    else if OneofPrefix <= m then Some(("oneof", m[|OneofPrefix|..]))
    else if OtherPrefix <= m then Some((m[|OtherPrefix|..], ""))
    else None
  }

  /** The message determines the rule: parsing it back yields the tag, and the
      parameter for the rules that name one. */
  lemma MessageDeterminesRule(fe: FieldError)
    ensures ParseMessage(ValidationMessage(fe)) == Some((fe.tag, if HasParam(fe.tag) then fe.param else ""))
  {
    var m := ValidationMessage(fe);
    if fe.tag == "min" {
      assert m[9] == 't' != EmailText[9];
    } else if fe.tag == "email" {
      Differs(MinPrefix, m, 9);
      Differs(MaxPrefix, m, 9);
    } else if fe.tag == "max" {
      assert m[9] == 't' != EmailText[9];
      Differs(MinPrefix, m, 11);
    } else if fe.tag == "len" {
      ParseLen(fe);
    } else if fe.tag == "oneof" {
      Differs(MinPrefix, m, 8);
      Differs(MaxPrefix, m, 8);
      Differs(LenPrefix, m, 8);
    } else if fe.tag !in KnownTags {
      assert !HasParam(fe.tag) by {
        assert "min" in KnownTags && "max" in KnownTags && "len" in KnownTags && "oneof" in KnownTags;
      }
      ParseOther(fe);
    }
  }

  /** A string that differs from `p` at position `i` does not start with `p`. */
  lemma Differs(p: string, m: string, i: nat)
    requires i < |p| && i < |m| && p[i] != m[i]
    ensures !(p <= m)
  {
  }

  lemma ParseLen(fe: FieldError)
    requires fe.tag == "len"
    ensures ParseMessage(ValidationMessage(fe)) == Some(("len", fe.param))
  {
    var m := ValidationMessage(fe);
    Differs(MinPrefix, m, 8);
    Differs(MaxPrefix, m, 8);
    assert m[..|LenPrefix|] == LenPrefix;
    assert m[|m| - |LenSuffix|..] == LenSuffix;
    assert m[|LenPrefix|..|m| - |LenSuffix|] == fe.param;
  }

  lemma ParseOther(fe: FieldError)
    requires fe.tag !in KnownTags
    ensures ParseMessage(ValidationMessage(fe)) == Some((fe.tag, ""))
  {
    var m := ValidationMessage(fe);
    assert m[0] == 'f';
    Differs(MinPrefix, m, 0);
    Differs(MaxPrefix, m, 0);
    Differs(LenPrefix, m, 0);
    Differs(OneofPrefix, m, 0);
    assert m != RequiredText && m != EmailText;
  }

  /** One entry of the combined message. */
  function Entry(fe: FieldError): string
  {
    "Field '" + fe.field + "' failed validation: " + ValidationMessage(fe)
  }

  /** The entries of a list of field errors, in input order. */
  function Entries(errors: seq<FieldError>): (es: seq<string>)
    ensures |es| == |errors|
    ensures forall i :: 0 <= i < |errors| ==> es[i] == Entry(errors[i])
  {
    seq(|errors|, i requires 0 <= i < |errors| => Entry(errors[i]))
  }

  const FailedPrefix := "validation failed: "
  const EntrySeparator := "; "

  /** `formatValidationError`: a list of field errors becomes one plain error
      listing every entry; any other error is returned as it is. */
  function FormatValidationError(err: ValidateError): (r: GoError)
    ensures err.OtherError? ==> r == err.err
    ensures err.FieldErrors? ==> r.Plain? && FailedPrefix <= r.text
  {
    match err
    case OtherError(e) => e
    case FieldErrors(errors) => Plain(FailedPrefix + Join(Entries(errors), EntrySeparator))
  }

  /** The entries appear in input order: one more field error appends its entry
      after a separator. */
  lemma FormatAppends(errors: seq<FieldError>, fe: FieldError)
    requires |errors| > 0
    ensures FormatValidationError(FieldErrors(errors + [fe])).text
            == FormatValidationError(FieldErrors(errors)).text + EntrySeparator + Entry(fe)
  {
    assert Entries(errors + [fe]) == Entries(errors) + [Entry(fe)];
    JoinSnoc(Entries(errors), Entry(fe), EntrySeparator);
  }

  /** A single field error yields exactly its own entry. */
  lemma FormatSingle(fe: FieldError)
    ensures FormatValidationError(FieldErrors([fe])) == Plain(FailedPrefix + Entry(fe))
  {
  }

  /** `RegisterTagNameFunc`'s function: the json tag up to its first comma, for which
      the function returns the empty string when the tag is "-" (the field is skipped by JSON). */
  function TagName(jsonTag: string): (name: string)
    ensures ',' !in name
    ensures name <= jsonTag || name == ""
    ensures name != "" ==> |name| == |jsonTag| || jsonTag[|name|] == ','
    ensures name == "" ==> jsonTag == "" || jsonTag[0] == ',' || jsonTag == "-" || "-," <= jsonTag
  {
    var name := Split(jsonTag, ',')[0];
    NameIsFirstPart(jsonTag);
    if name == "-" then "" else name
  }

  /** The first part of a split is the text before the first separator. */
  lemma {:induction false} NameIsFirstPart(s: string)
    ensures var first := Split(s, ',')[0];
            first <= s && ',' !in first && (|first| == |s| || s[|first|] == ',')
  {
    var parts := Split(s, ',');
    if |parts| == 1 {
      assert Join(parts, [',']) == parts[0];
    } else {
      assert Join(parts, [',']) == parts[0] + [','] + Join(parts[1..], [',']);
    }
  }

  /** The options after the name are ignored. */
  lemma TagNameIgnoresOptions(name: string, options: string)
    requires ',' !in name && name != "-"
    ensures TagName(name + "," + options) == name
    ensures TagName(name) == name
  {
    assert name + "," + options == name + [','] + options;
    SplitPrefix(name, ',', options);
    SplitNoSeparator(name, ',');
  }

  /** A skipped field has no name, whatever options follow the dash. */
  lemma TagNameDash(options: string)
    ensures TagName("-") == ""
    ensures TagName("-," + options) == ""
  {
    SplitNoSeparator("-", ',');
    assert "-," + options == "-" + [','] + options;
    SplitPrefix("-", ',', options);
  }
}

=== FILE: wrappers.dfy ===
/** Optional values and success-or-failure results: Go's `(*T, error)` return pairs. */
module Wrappers {

  datatype Option<+T> = None | Some(value: T)

  /** `Success(v)` is a nil error with value `v`; `Failure(e)` is a non-nil error `e`. */
  datatype Result<+T, +E> = Success(value: T) | Failure(error: E)
}
